=== FILE: README.md ===
# Schema editor core, modelled in Dafny

This project models the logic at the heart of the OpenSPG schema editor: a
React front end in which a knowledge-graph schema is drawn as nodes and edges
on a canvas, and a small FastAPI backend that asks a language model to turn
free text into such a schema. The model covers five pieces:

- `schema_store.dfy` (module `SchemaStore`): the shared store of the canvas
  (`useSchemaStore`). It holds the node and edge lists, the `isSyncing` flag
  and the validation errors, and it implements:
  - `addNode`;
  - `updateSchema`, which normalises a loosely typed backend payload that may
    use lower-camel or upper-camel field names;
  - `syncToBackend`, with its try/catch/finally and its mapping of a 422 answer
    to error records;
  - `extractNodeIdFromError`, the `/Node (\d+):/` capture.
- `extract_api.dfy` (module `ExtractApi`): the backend's `extractSchema`. It
  rejects blank text, cuts the JSON object out of the model's reply (from the
  first `{` to the last `}`), fills per-index defaults for absent keys and
  validates the result against the draft models. It also covers `save_to_spg`.
- `knowledge_base.dfy` (module `KnowledgeBase`): the knowledge-base list
  screen. This covers its search-and-owner filter, the "created by me" toggle
  and the `cn` class-name helper.
- `energy_edge.dfy` (module `EnergyEdge`): the custom canvas edge. This covers
  its context menu, delete, in-place label editing with Enter/Escape/blur, and
  when its label box is shown.
- `chat_box.dfy` (module `ChatBox`): the chat panel. This covers its greeting,
  the whitespace guard on sending, the append of the user's message, and the
  sync status word.

Shared modules:
- `wrappers.dfy`: `Option` and `Result`.
- `text.dfy`: trimming by a whitespace predicate, ASCII lower-casing, substring
  search, `find`/`rfind`, `join`, class-list splitting and decimal rendering.
- `js_values.dfy`: JavaScript values, truthiness, `||`, property reads,
  optional chaining and the `trim` whitespace set.

Modelling choices:
- State that the source updates in place is a Dafny `class`:
  - the store is `SchemaStore.Store`;
  - the canvas's edge list, shared by every edge, is `EnergyEdge.Flow`;
  - one mounted edge is `EnergyEdge.EdgeView`;
  - the chat panel is `ChatBox.Panel`.
- Pure transformations are functions with lemmas about them:
  - normalisation of a payload;
  - `filter`/`map` over the edge list;
  - the knowledge-base filter.
- The two loops of `extractSchema` are methods with loop invariants.
- The network, the language model, `json.loads`, `response.json()`,
  `Date.now()` and `datetime.now()` are inputs to the operations that use them:
  - `SyncResponse` is the settled `fetch`;
  - `reply` and `parse` stand for `call_llm` and `json.loads`;
  - `now` and `timestamp` stand for the clocks.

Points where the code's behaviour is easy to misread:
- `updateSchema` falls back to the next candidate (`ID` after `id`, `'Node'`
  after the labels, `(0,0)` after the positions) when a field is falsy, not only
  when it is absent (it uses `||`).
- `extractSchema` fills defaults only for absent keys (it uses `dict.get`). A
  key that is present with `null` is kept and then fails validation.
- The sync request goes to port 8000 while the backend listens on 8001.
  Transport is not modelled, so this mismatch has no effect on the model.

## Model

| member | source | states |
|---|---|---|
| SchemaStore.Store.constructor | src/hooks/useSchemaStore.jsx:4-30 | The store starts with the two initial nodes and the one initial edge, not syncing, and with no errors. |
| SchemaStore.Store.AddNode | src/hooks/useSchemaStore.jsx:35-37 | The node is appended at the end. Earlier nodes, the edges, the flag and the errors are unchanged, and ids are not checked. |
| SchemaStore.FirstTruthy | src/hooks/useSchemaStore.jsx:44-59 | Reference reading of an `a \|\| b \|\| … \|\| fallback` chain: the result is truthy iff the fallback or some candidate is truthy. |
| SchemaStore.NormalizeNode | src/hooks/useSchemaStore.jsx:43-51 | Mapping a node throws iff the node is null/undefined. Otherwise the type is always `custom`, and the position and label are always truthy (label never `''`). |
| SchemaStore.NormalizeEdge | src/hooks/useSchemaStore.jsx:53-63 | Mapping an edge throws iff the edge is null/undefined. Otherwise the type is always `energy`, it is animated, and it carries the closed-arrow marker. |
| SchemaStore.MapAll | src/hooks/useSchemaStore.jsx:43-51 | `.map` succeeds iff the callback succeeds on every element. The result then has one entry per element, in order, each equal to the callback's value. |
| SchemaStore.ListField | src/hooks/useSchemaStore.jsx:43 | `(payload.key \|\| [])` as the receiver of `.map`. A falsy field reads as the empty list and an array as its items. A truthy non-array throws TypeError: the read succeeds iff the field is falsy or an array. |
| SchemaStore.NormalizeSchema | src/hooks/useSchemaStore.jsx:42-63 | `updateSchema`'s mapping. A nullish payload throws. Every installed node has type `custom`, and every installed edge has type `energy` and is animated. When it succeeds, and in what shape, is `NormalizeSchemaShape`. |
| SchemaStore.NormalizeSchemaShape | src/hooks/useSchemaStore.jsx:42-63 | `updateSchema`'s mapping succeeds iff both the payload and each node and edge entry are non-nullish, and both lists are arrays or falsy. Then each output node/edge is the mapping of the input at the same index, and the lengths match. |
| SchemaStore.AbsentListsAreEmpty | src/hooks/useSchemaStore.jsx:43-53 | A payload without `nodes` and `edges` fields installs an empty graph. |
| SchemaStore.NodeFieldPrecedence | src/hooks/useSchemaStore.jsx:44-49 | Each node field is the first truthy candidate of its `\|\|` chain: label is `data?.label`, `Label`, `label`, then `'Node'`; position is `position`, `Position`, then `(0,0)`; id is `id` then `ID`; category is `Category` then `category`. |
| SchemaStore.NodeEitherCasing | src/hooks/useSchemaStore.jsx:43-51 | A node written in one casing only. Upper-camel `ID` and lower-camel `category` are kept verbatim. A lower-camel `id` and an upper-camel `Category` are kept when truthy and otherwise read as `undefined`. A truthy position is kept. A truthy lower-camel `label` is kept when there is no `data`; a truthy `Label` is always kept. |
| SchemaStore.EdgeFieldPrecedence | src/hooks/useSchemaStore.jsx:55-58 | Each edge field is the first truthy candidate of its `\|\|` chain, lower-camel first: `id` then `ID`, `source` then `Source`, `target` then `Target`, `label` then `Label`. |
| SchemaStore.EdgeEitherCasing | src/hooks/useSchemaStore.jsx:53-59 | An edge that uses either casing keeps its id, source, target and label. Upper-camel values are kept verbatim; lower-camel values are kept when truthy. |
| SchemaStore.Store.UpdateSchema | src/hooks/useSchemaStore.jsx:42-75 | On success the whole graph is replaced by the normalised payload, and the counts are its lengths. When the mapping throws, nodes and edges are unchanged. The flag and the errors are never touched. |
| SchemaStore.DigitRun | src/hooks/useSchemaStore.jsx:121 | Length of the maximal run of digits at an index: every character in it is a digit, and the next one is not. |
| SchemaStore.CaptureAt | src/hooks/useSchemaStore.jsx:121 | The capture of `Node (\d+):` at one index, if any, is a non-empty run of digits. That it is exactly the match there is `CaptureAtMatches`. |
| SchemaStore.CaptureIsDigitRun | src/hooks/useSchemaStore.jsx:121 | A match of `Node (\d+):` at an index captures exactly the maximal digit run after `Node `. |
| SchemaStore.CaptureAtMatches | src/hooks/useSchemaStore.jsx:121 | The capture computed at an index is a match there, and no capture means no match there. |
| SchemaStore.SearchFrom | src/hooks/useSchemaStore.jsx:121 | The search from an index finds the leftmost match at or after it, or reports that there is none. |
| SchemaStore.ExtractNodeIdFromError | src/hooks/useSchemaStore.jsx:120-123 | The result is null iff the pattern matches nowhere. Otherwise it is the capture of a match with no match to its left. |
| SchemaStore.MatchIsUnique | src/hooks/useSchemaStore.jsx:121 | At most one capture matches at a given index. |
| SchemaStore.LeftmostMatchIsExtracted | src/hooks/useSchemaStore.jsx:120-123 | The converse of the above: the capture of the leftmost match is what is returned. |
| SchemaStore.MatchStartsWithN | src/hooks/useSchemaStore.jsx:121 | A match implies that the message contains `N`. |
| SchemaStore.NoNodeWithoutCapitalN | src/hooks/useSchemaStore.jsx:120-123 | A message without a capital `N` gives null. |
| SchemaStore.NodeIdFound | src/hooks/useSchemaStore.jsx:120-123 | `"Node 3: missing category"` gives `"3"`. |
| SchemaStore.NodeIdAbsent | src/hooks/useSchemaStore.jsx:120-123 | `"Unknown error"` gives null. |
| SchemaStore.ValidationErrors | src/hooks/useSchemaStore.jsx:96-99 | One record per error string, in order. Each keeps its message and carries the id extracted from it, or null. |
| SchemaStore.ThrownMessage | src/hooks/useSchemaStore.jsx:93-111 | The try block completes without throwing iff the request settled with a readable body and a 2xx or 422 status. Otherwise it gives the message the catch records. |
| SchemaStore.SyncOutcome | src/hooks/useSchemaStore.jsx:93-111 | The errors after a sync. When something was thrown, there is exactly one record, without `nodeId`. Otherwise every record has a `nodeId` property. Per case: `SuccessClearsErrors`, `ValidationFailureKeepsEveryMessage`, `OtherFailuresGiveOneRecord`. |
| SchemaStore.SuccessClearsErrors | src/hooks/useSchemaStore.jsx:104-108 | A 2xx answer with a readable body leaves no errors. |
| SchemaStore.ValidationFailureKeepsEveryMessage | src/hooks/useSchemaStore.jsx:94-100 | A 422 answer gives exactly one record per error, in order, with its message. Each record has a `nodeId` property, which is null iff no `Node <digits>:` occurs in its message. A missing `errors` field gives no records. |
| SchemaStore.OtherFailuresGiveOneRecord | src/hooks/useSchemaStore.jsx:101-111 | Each of these gives exactly one record, without `nodeId`, carrying the caught error's message. A network error gives its own message. A non-2xx non-422 status gives `Sync failed: <statusText>`. An unreadable 2xx or 422 body gives the parse error's message. |
| SchemaStore.AbsentNodeIdMeansCaughtFailure | src/hooks/useSchemaStore.jsx:109-111 | A record without `nodeId` only ever comes from the catch path, and is then the only record. |
| SchemaStore.SyncExamples | src/hooks/useSchemaStore.jsx:94-100 | 422 examples: a `Node 3:` message gives node id `"3"`, and an unrelated message gives null. |
| SchemaStore.Store.BeginSync | src/hooks/useSchemaStore.jsx:81-91 | Before the request, the flag is raised and the errors are cleared. The posted graph is the current one. |
| SchemaStore.Store.FinishSync | src/hooks/useSchemaStore.jsx:93-114 | Whatever the response, the errors become the outcome of the response, and the flag is lowered on every path (`finally`). Nodes and edges are unchanged. |
| SchemaStore.Store.SyncToBackend | src/hooks/useSchemaStore.jsx:80-115 | A whole sync posts the graph as it was, then ends not syncing, with the errors given by the response and the graph unchanged. |
| ExtractApi.BlankMeansOnlyWhitespace | backend/main.py:149-150 | The request is rejected as blank iff every character is Python whitespace, which includes empty text. |
| ExtractApi.IsBlank | backend/main.py:149-150 | `not text or not text.strip()`. Its meaning (all characters are Python whitespace) is `BlankMeansOnlyWhitespace`. |
| ExtractApi.JsonCandidate | backend/main.py:161-167 | `reply[find("{"):rfind("}")+1]`, or nothing on a missing brace. Specified by `JsonCandidateMissing`, `JsonCandidateSpan` and `JsonCandidateEmpty`. |
| ExtractApi.SliceBetweenBounds | backend/main.py:161-167 | The candidate's bounds, stated over the indices that `find`/`rfind` return. |
| ExtractApi.JsonCandidateMissing | backend/main.py:161-165 | No candidate iff the reply lacks a `{` or a `}`. |
| ExtractApi.JsonCandidateSpan | backend/main.py:161-167 | A non-empty candidate runs from the first `{` to the last `}`, both included. |
| ExtractApi.JsonCandidateEmpty | backend/main.py:161-167 | The candidate is the empty string iff both braces occur and the last `}` precedes the first `{`. |
| ExtractApi.Strings | backend/main.py:182 | A list of string values becomes the list of those strings, in order. |
| ExtractApi.NodeAt | backend/main.py:176-185 | The `i`-th node built and validated. Only a dict item can build. Its per-key defaults are `NodeDefaults`, `NodeKeyDefaults` and `NodeDataDefaults`. |
| ExtractApi.EdgeAt | backend/main.py:190-197 | The `i`-th edge built and validated. Only a dict item can build. Its per-key defaults are `EdgeDefaults` and `EdgeKeyDefaults`. |
| ExtractApi.NodeDefaults | backend/main.py:176-185 | An empty node item validates and gets every default. The per-key rules for other items are `NodeKeyDefaults` and `NodeDataDefaults`. The defaults are id `node_<i>`, type `cyberNode`, label `Unknown`, category `EntityType`, no props, and position `(100+150i, 100+100i)`. |
| ExtractApi.EdgeDefaults | backend/main.py:190-197 | An empty edge item validates and gets every default. The per-key rules for other items are `EdgeKeyDefaults`. The defaults are id `edge_<i>`, empty source/target/label, animated, and type `cyberEdge`. |
| ExtractApi.PresentNullIsNotDefaulted | backend/main.py:177-184 | Defaults replace only absent keys. A `null` id, type or position is kept, so validation fails. |
| ExtractApi.NodeKeyDefaults | backend/main.py:176-184 | Each top-level key of a node item is defaulted on its own, whatever other keys it carries. A present `id`, `type` or `position` is kept as given, including every coordinate. An absent `id` becomes `node_<i>` and an absent `type` becomes `cyberNode`. An absent `position` becomes `(100+150i, 100+100i)`. |
| ExtractApi.NodeDataDefaults | backend/main.py:179-182 | Each key under `data` is defaulted on its own. A present `label`, `category` or `props` is kept as given. An absent one becomes `Unknown`, `EntityType` or `[]`, and a missing `data` defaults all three. |
| ExtractApi.EdgeKeyDefaults | backend/main.py:190-197 | Each key of an edge item is defaulted on its own. A present `id`, `source`, `target`, `label`, `animated` or `type` is kept as given. An absent one becomes `edge_<i>`, `""`, `""`, `""`, `true` or `cyberEdge`. |
| ExtractApi.DefaultIdsDistinct | backend/main.py:177 | Default ids of different indices differ, for nodes and for edges. |
| ExtractApi.NormalizeNodes | backend/main.py:175-186 | The node loop succeeds iff every item builds. The result then has one node per item, in order, each built from its own index. |
| ExtractApi.NormalizeEdges | backend/main.py:189-198 | The edge loop: same property as the node loop, for edges. |
| ExtractApi.ExtractSchema | backend/main.py:145-208 | Blank text gives 400. A failure of the model call gives 500. No braces gives 500. A decode error gives 500. Otherwise the call succeeds iff every node and edge item fits the models (else 500), with one draft node/edge per item, in order. |
| ExtractApi.SaveToSpg | backend/main.py:231-247 | `save_to_spg` answers with status `success` and the current timestamp. |
| ExtractApi.SaveIgnoresDraft | backend/main.py:231-247 | The answer does not depend on the draft. |
| Text.NatToStringInjective | backend/main.py:177 | Distinct indices render as distinct decimal strings. |
| Text.TrimIsMiddle | src/components/knowledge-base/KnowledgeBase.jsx:180 | The trimmed text is a contiguous middle of the input with only whitespace cut from each end. |
| Text.TrimEmptyIffBlank | src/components/schema-editor/ChatBox.jsx:11 | Trimming yields `''` iff every character is whitespace. |
| Text.TrimIgnoresSurroundingBlanks | src/components/knowledge-base/KnowledgeBase.jsx:180 | Whitespace added around a text does not change its trimmed form. |
| Text.LowerTrimCommute | src/components/knowledge-base/KnowledgeBase.jsx:180 | Lower-casing and trimming commute, so `trim().toLowerCase()` equals `toLowerCase().trim()`. |
| Text.Find | backend/main.py:161 | `find`: -1 iff the character is absent. Otherwise the index of its first occurrence. |
| Text.FindLast | backend/main.py:162 | `rfind`: -1 iff the character is absent. Otherwise the index of its last occurrence. |
| JsValues.Or | src/hooks/useSchemaStore.jsx:44 | `a \|\| b` is one of its operands, and it is truthy iff either operand is. |
| KnowledgeBase.FilterIsSubsequence | src/components/knowledge-base/KnowledgeBase.jsx:179-190 | The filtered list is a subsequence of the catalogue: order is kept and nothing is added. |
| KnowledgeBase.Keyword | src/components/knowledge-base/KnowledgeBase.jsx:180 | `searchQuery.trim().toLowerCase()`. Its invariance under case and surrounding space is `QueryIgnoresCase` and `QueryIgnoresSurroundingSpace`. |
| KnowledgeBase.Shown | src/components/knowledge-base/KnowledgeBase.jsx:181-189 | The filter callback. Its meaning is `FilterMeaning`. |
| KnowledgeBase.Filter | src/components/knowledge-base/KnowledgeBase.jsx:179-190 | `filteredKnowledgeBases` over a catalogue. Specified by `FilterIsSubsequence`, `FilterMembership` and `FilterMeaning`. |
| KnowledgeBase.FilteredKnowledgeBases | src/components/knowledge-base/KnowledgeBase.jsx:179-190 | The list the screen shows. On the shipped catalogue it is pinned down by `CatalogueOwnOnly`. |
| KnowledgeBase.FilterMembership | src/components/knowledge-base/KnowledgeBase.jsx:181-189 | An entry is listed iff it is in the catalogue and the callback accepts it. |
| KnowledgeBase.FilterMeaning | src/components/knowledge-base/KnowledgeBase.jsx:179-190 | With the box ticked, only own entries are listed. An empty keyword keeps every entry that passes the owner check. Otherwise an entry is listed iff its lower-cased title contains the keyword. |
| KnowledgeBase.EmptyQueryListsAll | src/components/knowledge-base/KnowledgeBase.jsx:185-187 | A blank query with the box unticked lists the whole catalogue. |
| KnowledgeBase.OwnerFilterOnlyRemoves | src/components/knowledge-base/KnowledgeBase.jsx:182-184 | Ticking the box only removes entries from the list. |
| KnowledgeBase.QueryIgnoresCase | src/components/knowledge-base/KnowledgeBase.jsx:180 | Queries that agree after lower-casing give the same list. |
| KnowledgeBase.QueryIgnoresSurroundingSpace | src/components/knowledge-base/KnowledgeBase.jsx:180 | Whitespace around the query does not change the list. |
| KnowledgeBase.CatalogueOwnOnly | src/components/knowledge-base/KnowledgeBase.jsx:80-84 | In the shipped catalogue, a ticked box with an empty query lists the first and third bases. |
| KnowledgeBase.ToggleTwiceRestores | src/components/knowledge-base/KnowledgeBase.jsx:227 | Clicking the checkbox twice restores its state. |
| KnowledgeBase.Toggled | src/components/knowledge-base/KnowledgeBase.jsx:227 | `prev => !prev`. Its involution is `ToggleTwiceRestores`. |
| KnowledgeBase.Kept | src/components/knowledge-base/KnowledgeBase.jsx:4 | `filter(Boolean)`: no empty string is kept. Each non-empty string occurs as often as it did among the arguments. |
| KnowledgeBase.KeptAppend | src/components/knowledge-base/KnowledgeBase.jsx:4 | Keeping distributes over concatenation, so the kept arguments stay in argument order. |
| KnowledgeBase.Cn | src/components/knowledge-base/KnowledgeBase.jsx:4 | `cn(...)`. Its class list is `CnClassList`, and its round trip is `CnRoundTrip`. |
| KnowledgeBase.CnClassList | src/components/knowledge-base/KnowledgeBase.jsx:4 | The class list the DOM reads from `cn(...)` is the class names of the kept arguments. |
| KnowledgeBase.JoinClassNames | src/components/knowledge-base/KnowledgeBase.jsx:4 | Joining with single spaces and splitting the class attribute again gives the class names of the parts. |
| KnowledgeBase.CnRoundTrip | src/components/knowledge-base/KnowledgeBase.jsx:4 | When each argument is one class name, `cn` reads back as exactly the truthy arguments, in order. |
| KnowledgeBase.KeptWordsReadBack | src/components/knowledge-base/KnowledgeBase.jsx:4 | Kept arguments with no whitespace are their own class names. |
| EnergyEdge.WithoutEdge | src/components/EnergyEdge.jsx:61 | After the filter, an edge is in the list iff it was there before and its id differs. Each other edge keeps its multiplicity. |
| EnergyEdge.WithoutEdgeAppend | src/components/EnergyEdge.jsx:61 | The filter distributes over concatenation, so the kept edges stay in order. |
| EnergyEdge.WithoutAbsentEdge | src/components/EnergyEdge.jsx:61 | A list without the id is unchanged. |
| EnergyEdge.WithoutEdgeTwice | src/components/EnergyEdge.jsx:61 | Deleting twice is the same as deleting once. |
| EnergyEdge.Relabelled | src/components/EnergyEdge.jsx:71-75 | The map keeps the length. Edges with another id are unchanged; edges with the id differ only in their label. |
| EnergyEdge.RelabelledKeepsIds | src/components/EnergyEdge.jsx:71-75 | Relabelling keeps every edge's id. |
| EnergyEdge.RelabelledLastWins | src/components/EnergyEdge.jsx:71-75 | A second save overwrites the first. |
| EnergyEdge.DeleteAfterRelabel | src/components/EnergyEdge.jsx:60-77 | Deleting after relabelling is the same as deleting. |
| EnergyEdge.LabelOf | src/components/EnergyEdge.jsx:16 | The rendered label is that of an edge with this id, or undefined when there is none. |
| EnergyEdge.SavedLabelReadsBack | src/components/EnergyEdge.jsx:70-77 | After a save, the edge renders with the saved label. |
| EnergyEdge.DeletedLabelIsGone | src/components/EnergyEdge.jsx:60-63 | After a delete, no label is left to render for the id. |
| EnergyEdge.TypedLabelIsShown | src/components/EnergyEdge.jsx:70-77 | Relabelling an edge that is on the canvas with a text makes `LabelOf` return that text, and a non-empty text is truthy (so the label box renders). The same fact for a live edge view is the `KeyDown`/`SaveEdit` contract. |
| EnergyEdge.EdgeView.constructor | src/components/EnergyEdge.jsx:18-21 | Mounting: menu closed, not editing, and `editLabel` is the label if truthy, otherwise `''`. |
| EnergyEdge.EdgeView.Label | src/components/EnergyEdge.jsx:16 | The `label` property, read from the shared edge list. Stated through `LabelOf`. |
| EnergyEdge.EdgeView.LabelVisible | src/components/EnergyEdge.jsx:110 | `label \|\| isEditing`. Used in the contracts of `Edit`, `SaveEdit`, `Blur` and `KeyDown`. |
| EnergyEdge.EdgeView.ContextMenu | src/components/EnergyEdge.jsx:52-58 | Right-click opens the menu and changes nothing else. |
| EnergyEdge.EdgeView.Delete | src/components/EnergyEdge.jsx:60-63 | The edge list becomes the filtered list, and the menu is closed. |
| EnergyEdge.EdgeView.Edit | src/components/EnergyEdge.jsx:65-68 | Editing starts, the menu closes, and the input is kept. The label box is visible while editing (line 110). |
| EnergyEdge.EdgeView.SaveEdit | src/components/EnergyEdge.jsx:70-77 | The edge list becomes the relabelled list carrying the input, and editing ends. When the edge is on the canvas, it then renders the saved text, and its label box stays visible iff that text is truthy. |
| EnergyEdge.EdgeView.Change | src/components/EnergyEdge.jsx:124 | The input holds the typed text. |
| EnergyEdge.EdgeView.Blur | src/components/EnergyEdge.jsx:126 | Leaving the input saves, exactly as `handleSaveEdit` does. For an edge on the canvas, it then renders the saved text, visible iff truthy. |
| EnergyEdge.EdgeView.KeyDown | src/components/EnergyEdge.jsx:79-86 | Enter saves; for an edge on the canvas, it then renders the saved text, visible iff truthy. Escape resets the input to `label \|\| ''` and ends editing without touching the list. Any other key changes nothing. |
| EnergyEdge.EdgeView.ClickOutside | src/components/EnergyEdge.jsx:34-50 | A click outside an open menu closes it; a click inside leaves it open. |
| ChatBox.StatusLabel | src/components/schema-editor/ChatBox.jsx:107 | The status word is `SYNCING...` iff syncing, and `READY` iff not. |
| ChatBox.BlankMeansAllSpace | src/components/schema-editor/ChatBox.jsx:11-13 | The send guard fires iff every character is JavaScript whitespace, which includes the empty input. |
| ChatBox.IsBlank | src/components/schema-editor/ChatBox.jsx:11 | `!inputText.trim()`. Its meaning (all characters are JavaScript whitespace) is `BlankMeansAllSpace`. |
| ChatBox.SurroundingSpaceDoesNotDecide | src/components/schema-editor/ChatBox.jsx:11 | Whitespace around the text does not change whether it is sent. |
| ChatBox.Panel.constructor | src/components/schema-editor/ChatBox.jsx:5-8 | The input starts empty. The list holds exactly one system greeting with id 1. Nothing has been sent. |
| ChatBox.Panel.SetInputText | src/components/schema-editor/ChatBox.jsx:87 | The input holds what was typed, and nothing else changes. |
| ChatBox.Panel.HandleSend | src/components/schema-editor/ChatBox.jsx:10-18 | Whitespace-only input changes nothing and sends nothing. Otherwise one user message with the untrimmed text is appended after the unchanged earlier messages, that same text is sent once, and the input is cleared. |
| ChatBox.Panel.KeyDown | src/components/schema-editor/ChatBox.jsx:88 | Enter without Shift sends exactly as `handleSend` does. Any other key leaves messages, input and sends unchanged. |

## Left out

- Network and model I/O are not modelled.
  - Not modelled: `fetch`, `call_llm` (API key check, HTTP client, timeouts, response parsing), FastAPI routing, CORS and uvicorn.
  - Their outcomes are inputs. `SyncResponse` is the settled request of `syncToBackend`. `reply` and `parse` stand for `call_llm` and `json.loads` in `ExtractSchema`.
- The backend's error `detail` texts are not modelled. They are built from exception strings, so `Detail` records only which failure occurred.
- Numbers are integers throughout, so the model has no floats, NaN or `-0` among JavaScript values, and no float positions. Pydantic validation is modelled strictly:
  - a `str` field accepts only strings;
  - `bool` accepts only booleans;
  - `Dict[str, int]` accepts only integer values.

  Pydantic's lax coercions (for example a numeric string for an integer) are not modelled.
- SchemaStore.Store.FinishSync: a 422 body whose `errors` field is neither an array nor falsy, or whose entries are not strings, is not modelled. There `.map` or `.match` would throw and take the catch path.
- SchemaStore.Store.AddNode: does not model `concat` flattening an array argument. The node added is always one node.
- `toLowerCase` is modelled as ASCII lower-casing, so non-ASCII letters are left as they are. The catalogue's titles have no non-ASCII letters that case-map.
- `Date.now()` message ids and `datetime.now()` timestamps are parameters.
- The following are not modelled:
  - rendering;
  - menu placement and the bezier geometry of the edge;
  - animation;
  - the collapse button of the chat panel.
- React's scheduling is not modelled: batching, effects and stale closures. Each handler runs to completion before the next event.
  - `EnergyEdge.EdgeView.ClickOutside` models the document listener as active exactly while the menu is open. The `setTimeout` that arms it is not modelled.
- The following are not part of this model:
  - `App.jsx`;
  - `Canvas.jsx`, `SchemaEditor.jsx` and `Sidebar.jsx`;
  - `Login.jsx` and `Application.jsx`;
  - the status bar and button components.
- EnergyEdge.LabelOf: when several edges share an id, each rendered copy shows its own label. The model reads the label of the first.
- EnergyEdge.WithoutEdge: ids compare structurally. This matches `!==` for the string and number ids the canvas uses, but not for object ids.
- The order of keys in the JSON objects sent or returned is not modelled. Dafny maps are unordered.
- The store's `edges` and the list an `EnergyEdge.EdgeView` edits are one list in the program: the canvas hands the store's edges to the flow. The model keeps `SchemaStore.Store.edges` and `EnergyEdge.Flow.edges` apart. It therefore does not show an edge deletion or relabel reaching the store, or the next sync posting it.
- The `console.log`/`console.error` calls in `updateSchema` and `syncToBackend` are not modelled. They only log.

=== FILE: chat_box.dfy ===
/**
 * The chat panel of the schema editor: its message list, the text box,
 * sending, and the sync status line.
 *
 * The `onSendMessage` callback the panel is given is modelled by the list
 * `sent` of the texts it has been called with; the `Date.now()` id of a new
 * message is the parameter `now`.
 */
module ChatBox {
  import Text
  import JsValues

  datatype Sender = System | User

  datatype Message = Message(id: int, sender: Sender, text: string)

  /** The greeting the panel opens with. */
  const Welcome: string := "欢迎使用 Schema 编辑器！AI 助手已就绪。"

  /** The status line's word: what the panel shows after `SYS://`. */
  function StatusLabel(isSyncing: bool): (r: string)
    ensures r == "SYNCING..." <==> isSyncing
    ensures r == "READY" <==> !isSyncing
  {
    if isSyncing then "SYNCING..." else "READY"
  }

  /** `!inputText.trim()`: the text is empty once JavaScript whitespace is trimmed from both ends. */
  predicate IsBlank(text: string) {
    JsValues.Trim(text) == ""
  }

  /** A text is blank exactly when every character of it is JavaScript whitespace. */
  lemma BlankMeansAllSpace(text: string)
    ensures IsBlank(text) <==> Text.AllIn(text, JsValues.IsSpace)
  {
    Text.TrimEmptyIffBlank(text, JsValues.IsSpace);
  }

  class Panel {
    var inputText: string
    var messages: seq<Message>
    /** The texts handed to `onSendMessage`, oldest first. */
    var sent: seq<string>

    /** Mounting: an empty text box, and the one system greeting with id 1. */
    constructor ()
      ensures inputText == "" && sent == []
      ensures messages == [Message(1, System, Welcome)]
    {
      inputText := "";
      messages := [Message(1, System, Welcome)];
      sent := [];
    }

    /** The text box's `onChange`. */
    method SetInputText(text: string)
      modifies this
      ensures inputText == text
      ensures messages == old(messages) && sent == old(sent)
    {
      inputText := text;
    }

    /**
     * `handleSend`: a whitespace-only text is ignored; any other text, untrimmed,
     * becomes a user message at the end of the list and is passed on once, and
     * the text box is cleared.
     */
    method HandleSend(now: int)
      modifies this
      ensures Text.AllIn(old(inputText), JsValues.IsSpace) ==>
        inputText == old(inputText) && messages == old(messages) && sent == old(sent)
      ensures !Text.AllIn(old(inputText), JsValues.IsSpace) ==>
        && messages == old(messages) + [Message(now, User, old(inputText))]
        && sent == old(sent) + [old(inputText)]
        && inputText == ""
    {
      BlankMeansAllSpace(inputText);
      if IsBlank(inputText) {
        return;
      }
      var userMsg := Message(now, User, inputText);
      messages := messages + [userMsg];
      sent := sent + [inputText];
      inputText := "";
    }

    /** The text box's `onKeyDown`: Enter without Shift sends; every other key is left to the text box. */
    method KeyDown(key: string, shiftKey: bool, now: int)
      modifies this
      ensures key == "Enter" && !shiftKey && !Text.AllIn(old(inputText), JsValues.IsSpace) ==>
        && messages == old(messages) + [Message(now, User, old(inputText))]
        && sent == old(sent) + [old(inputText)]
        && inputText == ""
      ensures !(key == "Enter" && !shiftKey) || Text.AllIn(old(inputText), JsValues.IsSpace) ==>
        inputText == old(inputText) && messages == old(messages) && sent == old(sent)
    {
      if key == "Enter" && !shiftKey {
        HandleSend(now);
      }
    }
  }

  /** Whitespace around a text does not decide whether it is sent. */
  lemma SurroundingSpaceDoesNotDecide(pre: string, text: string, post: string)
    requires Text.AllIn(pre, JsValues.IsSpace) && Text.AllIn(post, JsValues.IsSpace)
    ensures IsBlank(pre + text + post) <==> IsBlank(text)
  {
    Text.TrimIgnoresSurroundingBlanks(pre, text, post, JsValues.IsSpace);
  }
}

=== FILE: energy_edge.dfy ===
/**
 * The custom "energy" edge of the schema canvas: its right-click menu,
 * delete, in-place label editing with Enter/Escape, and when the label
 * box is on screen.
 *
 * The canvas's edge list is one mutable object (`Flow`), shared by every
 * edge view on it; `setEdges(edges => ...)` becomes an update of
 * `flow.edges` by the pure list functions `WithoutEdge` and `Relabelled`.
 * The `label` property the canvas renders an edge with is the label of
 * that edge in the list, so it is read from `flow.edges` (`LabelOf`).
 */
module EnergyEdge {
  import opened JsValues
  import opened SchemaStore

  // ---------------------------------------------------------- the edge list

  /** `edges.filter(edge => edge.id !== id)`. */
  function WithoutEdge(edges: seq<FlowEdge>, id: Value): (r: seq<FlowEdge>)
    ensures |r| <= |edges|
    ensures forall e :: e in r <==> e in edges && e.id != id
    ensures forall e: FlowEdge :: e.id != id ==> multiset(r)[e] == multiset(edges)[e]
  {
    if edges == [] then []
    else
      var rest := WithoutEdge(edges[1..], id);
      assert edges == [edges[0]] + edges[1..];
      if edges[0].id != id then [edges[0]] + rest else rest
  }

  /** Filtering distributes over concatenation, so the kept edges stay in their original order. */
  lemma {:induction false} WithoutEdgeAppend(a: seq<FlowEdge>, b: seq<FlowEdge>, id: Value)
    ensures WithoutEdge(a + b, id) == WithoutEdge(a, id) + WithoutEdge(b, id)
  {
    if a == [] {
      assert a + b == b;
    } else {
      assert (a + b)[1..] == a[1..] + b;
      WithoutEdgeAppend(a[1..], b, id);
    }
  }

  /** A list without the id is left exactly as it was. */
  lemma {:induction false} WithoutAbsentEdge(edges: seq<FlowEdge>, id: Value)
    requires forall i :: 0 <= i < |edges| ==> edges[i].id != id
    ensures WithoutEdge(edges, id) == edges
  {
    if edges != [] {
      WithoutAbsentEdge(edges[1..], id);
    }
  }

  /** Deleting twice is deleting once. */
  lemma WithoutEdgeTwice(edges: seq<FlowEdge>, id: Value)
    ensures WithoutEdge(WithoutEdge(edges, id), id) == WithoutEdge(edges, id)
  {
    var r := WithoutEdge(edges, id);
    assert forall i :: 0 <= i < |r| ==> r[i] in r;
    WithoutAbsentEdge(r, id);
  }

  /** `edges.map(edge => edge.id === id ? { ...edge, label } : edge)`. */
  function Relabelled(edges: seq<FlowEdge>, id: Value, newLabel: Value): (r: seq<FlowEdge>)
    ensures |r| == |edges|
    ensures forall i :: 0 <= i < |edges| && edges[i].id != id ==> r[i] == edges[i]
    ensures forall i :: 0 <= i < |edges| && edges[i].id == id ==> r[i] == edges[i].(edgeLabel := newLabel)
  {
    if edges == [] then []
    else
      var e := edges[0];
      [if e.id == id then e.(edgeLabel := newLabel) else e] + Relabelled(edges[1..], id, newLabel)
  }

  /** Relabelling keeps every edge's id, so the list still holds the same edges by id. */
  lemma RelabelledKeepsIds(edges: seq<FlowEdge>, id: Value, newLabel: Value)
    ensures forall i :: 0 <= i < |edges| ==> Relabelled(edges, id, newLabel)[i].id == edges[i].id
  {
  }

  /** A second relabel of the same edge overwrites the first. */
  lemma RelabelledLastWins(edges: seq<FlowEdge>, id: Value, l1: Value, l2: Value)
    ensures Relabelled(Relabelled(edges, id, l1), id, l2) == Relabelled(edges, id, l2)
  {
    var a := Relabelled(Relabelled(edges, id, l1), id, l2);
    var b := Relabelled(edges, id, l2);
    assert forall i :: 0 <= i < |edges| ==> a[i] == b[i];
  }

  /** Deleting an edge after relabelling it is the same as deleting it. */
  lemma {:induction false} DeleteAfterRelabel(edges: seq<FlowEdge>, id: Value, newLabel: Value)
    ensures WithoutEdge(Relabelled(edges, id, newLabel), id) == WithoutEdge(edges, id)
  {
    if edges != [] {
      var r := Relabelled(edges, id, newLabel);
      assert r[1..] == Relabelled(edges[1..], id, newLabel);
      DeleteAfterRelabel(edges[1..], id, newLabel);
    }
  }

  /** The `label` the canvas renders the edge with: that of the first edge in the list with this id. */
  function LabelOf(edges: seq<FlowEdge>, id: Value): (r: Value)
    ensures (forall e :: e in edges ==> e.id != id) ==> r == Undefined
    ensures (exists e :: e in edges && e.id == id) ==> exists e :: e in edges && e.id == id && r == e.edgeLabel
  {
    if edges == [] then Undefined
    else if edges[0].id == id then edges[0].edgeLabel
    else
      assert forall e :: e in edges && e.id == id ==> e in edges[1..];
      LabelOf(edges[1..], id)
  }

  /** After a save, the edge is rendered with the saved label. */
  lemma {:induction false} SavedLabelReadsBack(edges: seq<FlowEdge>, id: Value, newLabel: Value)
    requires exists e :: e in edges && e.id == id
    ensures LabelOf(Relabelled(edges, id, newLabel), id) == newLabel
  {
    var r := Relabelled(edges, id, newLabel);
    if edges[0].id != id {
      assert r[1..] == Relabelled(edges[1..], id, newLabel);
      assert exists e :: e in edges[1..] && e.id == id;
      SavedLabelReadsBack(edges[1..], id, newLabel);
    }
  }

  /** After a delete no edge with the id is left to render a label. */
  lemma DeletedLabelIsGone(edges: seq<FlowEdge>, id: Value)
    ensures LabelOf(WithoutEdge(edges, id), id) == Undefined
  {
  }

  // ---------------------------------------------------------- the view state

  /** The canvas's edge list, which every edge view updates. */
  class Flow {
    var edges: seq<FlowEdge>

    constructor (edges: seq<FlowEdge>)
      ensures this.edges == edges
    {
      this.edges := edges;
    }
  }

  /** One mounted edge: the id it was rendered for and its local UI state. */
  class EdgeView {
    const id: Value
    const flow: Flow
    var showMenu: bool
    var isEditing: bool
    var editLabel: Value

    /** The `label` property: the label of this edge in the canvas's list. */
    function Label(): Value
      reads this, flow
    {
      LabelOf(flow.edges, id)
    }

    /** The label box is rendered when the label is truthy or while it is being edited. */
    predicate LabelVisible()
      reads this, flow
    {
      Truthy(Label()) || isEditing
    }

    /** Mounting: menu closed, not editing, and the input seeded with `label || ''`. */
    constructor (id: Value, flow: Flow)
      ensures this.id == id && this.flow == flow
      ensures !showMenu && !isEditing
      ensures editLabel == Or(LabelOf(flow.edges, id), Str(""))
      ensures Truthy(editLabel) ==> editLabel == LabelOf(flow.edges, id)
      ensures !Truthy(LabelOf(flow.edges, id)) ==> editLabel == Str("")
    {
      this.id := id;
      this.flow := flow;
      showMenu := false;
      isEditing := false;
      editLabel := Or(LabelOf(flow.edges, id), Str(""));
    }

    /** `handleContextMenu`: opens the menu (its screen position is not modelled). */
    method ContextMenu()
      modifies this
      ensures showMenu
      ensures isEditing == old(isEditing) && editLabel == old(editLabel)
    {
      showMenu := true;
    }

    /** `handleDelete`: removes every edge with this id, keeps the rest in order, closes the menu. */
    method Delete()
      modifies this, flow
      ensures flow.edges == WithoutEdge(old(flow.edges), id)
      ensures !showMenu
      ensures isEditing == old(isEditing) && editLabel == old(editLabel)
    {
      flow.edges := WithoutEdge(flow.edges, id);
      showMenu := false;
    }

    /** `handleEdit`: enters editing and closes the menu; the label box is on screen while editing. */
    method Edit()
      modifies this
      ensures isEditing && !showMenu
      ensures editLabel == old(editLabel)
      ensures LabelVisible()
    {
      isEditing := true;
      showMenu := false;
    }

    /**
     * `handleSaveEdit`: writes the input into the label of the edges with this id
     * and stops editing; the edge then renders the saved text, and its label box
     * stays on screen exactly when that text is truthy.
     */
    method SaveEdit()
      modifies this, flow
      ensures flow.edges == Relabelled(old(flow.edges), id, old(editLabel))
      ensures !isEditing
      ensures showMenu == old(showMenu) && editLabel == old(editLabel)
      ensures (exists e :: e in old(flow.edges) && e.id == id) ==>
        Label() == old(editLabel) && (LabelVisible() <==> Truthy(old(editLabel)))
    {
      if exists e :: e in flow.edges && e.id == id {
        SavedLabelReadsBack(flow.edges, id, editLabel);
      }
      flow.edges := Relabelled(flow.edges, id, editLabel);
      isEditing := false;
    }

    /** The input's `onChange`: the input holds what was typed. */
    method Change(text: string)
      modifies this
      ensures editLabel == Str(text)
      ensures showMenu == old(showMenu) && isEditing == old(isEditing)
    {
      editLabel := Str(text);
    }

    /** The input's `onBlur`, which is `handleSaveEdit`. */
    method Blur()
      modifies this, flow
      ensures flow.edges == Relabelled(old(flow.edges), id, old(editLabel))
      ensures !isEditing
      ensures showMenu == old(showMenu) && editLabel == old(editLabel)
      ensures (exists e :: e in old(flow.edges) && e.id == id) ==>
        Label() == old(editLabel) && (LabelVisible() <==> Truthy(old(editLabel)))
    {
      SaveEdit();
    }

    /** `handleKeyDown`: Enter saves, Escape discards the input and stops editing, any other key does nothing. */
    method KeyDown(key: string)
      modifies this, flow
      ensures key == "Enter" ==>
        && flow.edges == Relabelled(old(flow.edges), id, old(editLabel))
        && !isEditing && editLabel == old(editLabel)
      ensures key == "Enter" && (exists e :: e in old(flow.edges) && e.id == id) ==>
        Label() == old(editLabel) && (LabelVisible() <==> Truthy(old(editLabel)))
      ensures key == "Escape" ==>
        && flow.edges == old(flow.edges)
        && !isEditing && editLabel == Or(old(Label()), Str(""))
      ensures key != "Enter" && key != "Escape" ==>
        && flow.edges == old(flow.edges)
        && isEditing == old(isEditing) && editLabel == old(editLabel)
      ensures showMenu == old(showMenu)
    {
      if key == "Enter" {
        SaveEdit();
      } else if key == "Escape" {
        editLabel := Or(Label(), Str(""));
        isEditing := false;
      }
    }

    /** The document click listener armed while the menu is open: a click outside the menu closes it. */
    method ClickOutside(insideMenu: bool)
      modifies this
      ensures showMenu == (old(showMenu) && insideMenu)
      ensures isEditing == old(isEditing) && editLabel == old(editLabel)
    {
      if showMenu && !insideMenu {
        showMenu := false;
      }
    }
  }

  /** Editing a label and pressing Enter renders the edge with the typed text. */
  lemma TypedLabelIsShown(edges: seq<FlowEdge>, id: Value, text: string)
    requires exists e :: e in edges && e.id == id
    ensures LabelOf(Relabelled(edges, id, Str(text)), id) == Str(text)
    ensures text != "" ==> Truthy(LabelOf(Relabelled(edges, id, Str(text)), id))
  {
    SavedLabelReadsBack(edges, id, Str(text));
  }
}

=== FILE: extract_api.dfy ===
/**
 * The extraction endpoint of the Python backend: `extractSchema` rejects
 * blank text, asks the language model for a reply, cuts the JSON object out
 * of it (first `{` to last `}`), and rebuilds the draft's nodes and edges,
 * filling per-index defaults for absent keys. Every failure after the model
 * call becomes HTTP 500; no partial draft is ever returned. `save_to_spg`
 * acknowledges any draft.
 */
module ExtractApi {

  import opened Wrappers
  import Text

  // ---------------------------------------------------------------- data

  /** A value produced by `json.loads`; numbers are integers here. */
  datatype PyValue =
    | PyNone
    | PyBool(b: bool)
    | PyInt(i: int)
    | PyStr(s: string)
    | PyList(items: seq<PyValue>)
    | PyDict(entries: map<string, PyValue>)

  /** `ReactFlowNode` with its `NodeData` flattened in. */
  datatype DraftNode = DraftNode(
    id: string, nodeType: string, dataLabel: string, category: string,
    props: seq<string>, position: map<string, int>)

  /** `ReactFlowEdge`. */
  datatype DraftEdge = DraftEdge(
    id: string, source: string, target: string, edgeLabel: string,
    animated: bool, edgeType: string)

  /** `SchemaDraft`: the body of a successful extraction. */
  datatype SchemaDraft = SchemaDraft(nodes: seq<DraftNode>, edges: seq<DraftEdge>)

  /** Why the endpoint answered with an error status. */
  datatype Detail =
    | EmptyText                     // blank request text
    | LlmFailure(message: string)   // raised by the model call
    | NoJsonFound                   // no `{` or no `}` in the reply
    | UndecodableJson(message: string)
    | InvalidShape                  // the decoded value does not fit the draft models

  /** An `HTTPException`. */
  datatype HttpError = HttpError(status: int, detail: Detail)

  /** What `json.loads` does with a candidate string. */
  datatype ParseOutcome = Parsed(value: PyValue) | DecodeError(message: string)

  /** `save_to_spg`'s answer. */
  datatype SaveReply = SaveReply(status: string, message: string, timestamp: string)

  // -------------------------------------------------------- blank check

  /** The characters `str.isspace` accepts, which `str.strip()` removes. */
  predicate IsSpace(c: char) {
    ('\t' <= c <= '\r') || ('\U{1C}' <= c <= ' ') || c == '\U{85}' || c == '\U{A0}'
    || c == '\U{1680}' || ('\U{2000}' <= c <= '\U{200A}') || c == '\U{2028}' || c == '\U{2029}'
    || c == '\U{202F}' || c == '\U{205F}' || c == '\U{3000}'
  }

  /** `not text or not text.strip()`. */
  predicate IsBlank(text: string) {
    text == "" || Text.Trim(text, IsSpace) == ""
  }

  /** The request is rejected exactly when the text is empty or only whitespace. */
  lemma BlankMeansOnlyWhitespace(text: string)
    ensures IsBlank(text) <==> forall i :: 0 <= i < |text| ==> IsSpace(text[i])
  {
    Text.TrimEmptyIffBlank(text, IsSpace);
  }

  // ---------------------------------------------------- JSON candidate

  /** `reply[reply.find("{"):reply.rfind("}") + 1]`, or nothing when either brace is missing. */
  function JsonCandidate(reply: string): Option<string> {
    SliceBetween(reply, Text.Find(reply, '{'), Text.FindLast(reply, '}') + 1)
  }

  /** `reply[start:end]` once both finds succeeded (`find` gives -1 and `rfind(...) + 1` gives 0 on a miss). */
  function SliceBetween(reply: string, start: int, end: int): Option<string>
    requires -1 <= start < |reply| && 0 <= end <= |reply|
  {
    if start == -1 || end == 0 then None
    else Some(if start < end then reply[start..end] else "")
  }

  /** What `JsonCandidate` promises, stated over the two indices the finds return. */
  lemma SliceBetweenBounds(reply: string, start: int, last: int)
    requires -1 <= start < |reply| && (start == -1 <==> '{' !in reply)
    requires start >= 0 ==> reply[start] == '{' && '{' !in reply[..start]
    requires -1 <= last < |reply| && (last == -1 <==> '}' !in reply)
    requires last >= 0 ==> reply[last] == '}' && '}' !in reply[last + 1..]
    ensures SliceBetween(reply, start, last + 1).None? <==> '{' !in reply || '}' !in reply
    ensures SliceBetween(reply, start, last + 1).Some? && SliceBetween(reply, start, last + 1).value != "" ==>
      && 0 <= start < last < |reply|
      && SliceBetween(reply, start, last + 1).value == reply[start..last + 1]
    ensures SliceBetween(reply, start, last + 1) == Some("") <==>
      '{' in reply && '}' in reply && last < start
  {
    if start != -1 && last != -1 && start < last + 1 {
      assert start != last;
    }
  }

  /** The candidate is missing exactly when the reply lacks a `{` or a `}`. */
  lemma JsonCandidateMissing(reply: string)
    ensures JsonCandidate(reply).None? <==> '{' !in reply || '}' !in reply
  {
    SliceBetweenBounds(reply, Text.Find(reply, '{'), Text.FindLast(reply, '}'));
  }

  /** A non-empty candidate runs from the first `{` to the last `}` of the reply, both included. */
  lemma JsonCandidateSpan(reply: string)
    ensures JsonCandidate(reply).Some? && JsonCandidate(reply).value != "" ==>
      var i, j := Text.Find(reply, '{'), Text.FindLast(reply, '}');
        && 0 <= i < j < |reply|
        && JsonCandidate(reply).value == reply[i..j + 1]
        && reply[i] == '{' && '{' !in reply[..i]
        && reply[j] == '}' && '}' !in reply[j + 1..]
  {
    var i, j := Text.Find(reply, '{'), Text.FindLast(reply, '}');
    SliceBetweenBounds(reply, i, j);
    assert JsonCandidate(reply) == SliceBetween(reply, i, j + 1);
  }

  /** The candidate is empty exactly when the last `}` comes before the first `{` (a Python slice with its start past its end). */
  lemma JsonCandidateEmpty(reply: string)
    ensures JsonCandidate(reply) == Some("") <==>
      '{' in reply && '}' in reply && Text.FindLast(reply, '}') < Text.Find(reply, '{')
  {
    SliceBetweenBounds(reply, Text.Find(reply, '{'), Text.FindLast(reply, '}'));
  }

  // ------------------------------------------------------- normalisation

  /** `d.get(key, default)`. */
  function DictGet(d: map<string, PyValue>, key: string, default: PyValue): PyValue {
    if key in d then d[key] else default
  }

  /**
   * The elements `for x in v` visits, when each could still be a dict: a list's
   * items, nothing for an empty dict or empty string. Anything else fails: `None`
   * and numbers are not iterable, and a non-empty dict or string yields strings,
   * on which the first `.get` raises.
   */
  function Iterate(v: PyValue): Option<seq<PyValue>> {
    match v
    case PyList(items) => Some(items)
    case PyDict(m) => if m == map[] then Some([]) else None
    case PyStr(s) => if s == "" then Some([]) else None
    case _ => None
  }

  /** `schema_data.get(key, [])` as the iterable of the loop. */
  function SchemaItems(schema: PyValue, key: string): Option<seq<PyValue>> {
    if schema.PyDict? then Iterate(DictGet(schema.entries, key, PyList([]))) else None
  }

  /** A `List[str]` field accepts a list of strings. */
  predicate IsStrList(v: PyValue) {
    v.PyList? && forall k :: 0 <= k < |v.items| ==> v.items[k].PyStr?
  }

  /** The strings of a list of string values. */
  function Strings(items: seq<PyValue>): (r: seq<string>)
    requires forall k :: 0 <= k < |items| ==> items[k].PyStr?
    ensures |r| == |items| && forall k :: 0 <= k < |r| ==> items[k] == PyStr(r[k])
  {
    if items == [] then [] else [items[0].s] + Strings(items[1..])
  }

  /** A `Dict[str, int]` field accepts a dict of integers. */
  predicate IsIntDict(v: PyValue) {
    v.PyDict? && forall k :: k in v.entries ==> v.entries[k].PyInt?
  }

  function IntEntries(v: PyValue): (r: map<string, int>)
    requires IsIntDict(v)
  {
    map k | k in v.entries :: v.entries[k].i
  }

  /** The default position of the `i`-th node: a diagonal staircase from (100, 100). */
  function DefaultPosition(i: nat): PyValue {
    PyDict(map["x" := PyInt(100 + i * 150), "y" := PyInt(100 + i * 100)])
  }

  function DefaultNodeId(i: nat): string {
    "node_" + Text.NatToString(i)
  }

  function DefaultEdgeId(i: nat): string {
    "edge_" + Text.NatToString(i)
  }

  /** The `i`-th node built and validated, or nothing when `.get` or validation would raise. */
  function NodeAt(i: nat, item: PyValue): (r: Option<DraftNode>)
    ensures r.Some? ==> item.PyDict?
  {
    if !item.PyDict? then None
    else
      var data := DictGet(item.entries, "data", PyDict(map[]));
      if !data.PyDict? then None
      else
        var id := DictGet(item.entries, "id", PyStr(DefaultNodeId(i)));
        var kind := DictGet(item.entries, "type", PyStr("cyberNode"));
        var labelValue := DictGet(data.entries, "label", PyStr("Unknown"));
        var category := DictGet(data.entries, "category", PyStr("EntityType"));
        var props := DictGet(data.entries, "props", PyList([]));
        var position := DictGet(item.entries, "position", DefaultPosition(i));
        if id.PyStr? && kind.PyStr? && labelValue.PyStr? && category.PyStr? && IsStrList(props) && IsIntDict(position)
        then Some(DraftNode(id.s, kind.s, labelValue.s, category.s, Strings(props.items), IntEntries(position)))
        else None
  }

  /** The `i`-th edge built and validated, or nothing when `.get` or validation would raise. */
  function EdgeAt(i: nat, item: PyValue): (r: Option<DraftEdge>)
    ensures r.Some? ==> item.PyDict?
  {
    if !item.PyDict? then None
    else
      var id := DictGet(item.entries, "id", PyStr(DefaultEdgeId(i)));
      var source := DictGet(item.entries, "source", PyStr(""));
      var target := DictGet(item.entries, "target", PyStr(""));
      var labelValue := DictGet(item.entries, "label", PyStr(""));
      var animated := DictGet(item.entries, "animated", PyBool(true));
      var kind := DictGet(item.entries, "type", PyStr("cyberEdge"));
      if id.PyStr? && source.PyStr? && target.PyStr? && labelValue.PyStr? && animated.PyBool? && kind.PyStr?
      then Some(DraftEdge(id.s, source.s, target.s, labelValue.s, animated.b, kind.s))
      else None
  }

  /** A node object with none of the optional keys gets every default, the position depending on its index. */
  lemma NodeDefaults(i: nat)
    ensures NodeAt(i, PyDict(map[])) ==
      Some(DraftNode(DefaultNodeId(i), "cyberNode", "Unknown", "EntityType", [],
                     map["x" := 100 + 150 * i, "y" := 100 + 100 * i]))
  {
    var r := IntEntries(DefaultPosition(i));
    assert r.Keys == {"x", "y"};
    assert r == map["x" := 100 + 150 * i, "y" := 100 + 100 * i];
  }

  /** An edge object with none of the optional keys gets every default. */
  lemma EdgeDefaults(i: nat)
    ensures EdgeAt(i, PyDict(map[])) == Some(DraftEdge(DefaultEdgeId(i), "", "", "", true, "cyberEdge"))
  {
  }

  /** Defaults replace only absent keys: a key present with `null` is kept and fails validation. */
  lemma PresentNullIsNotDefaulted(i: nat, m: map<string, PyValue>, key: string)
    requires key in {"id", "type", "position"} && key in m && m[key] == PyNone
    ensures NodeAt(i, PyDict(m)) == None
    ensures key != "position" ==> EdgeAt(i, PyDict(m)) == None
  {
  }

  /** The Python value a validated `props` list came from. */
  function StrValues(xs: seq<string>): (r: seq<PyValue>)
    ensures |r| == |xs| && forall k :: 0 <= k < |xs| ==> r[k] == PyStr(xs[k])
  {
    seq(|xs|, k requires 0 <= k < |xs| => PyStr(xs[k]))
  }

  /** The Python value a validated `position` dict came from. */
  function IntValues(p: map<string, int>): (r: map<string, PyValue>)
    ensures r.Keys == p.Keys && forall k :: k in p ==> r[k] == PyInt(p[k])
  {
    map k | k in p :: PyInt(p[k])
  }

  /**
   * The top-level keys of a node item are defaulted one by one: a present key
   * is taken as it is, an absent one gets its default, whatever other keys the
   * item carries. In particular an item without `position` is placed on the
   * per-index staircase.
   */
  lemma NodeKeyDefaults(i: nat, m: map<string, PyValue>)
    requires NodeAt(i, PyDict(m)).Some?
    ensures "id" in m ==> m["id"] == PyStr(NodeAt(i, PyDict(m)).value.id)
    ensures "id" !in m ==> NodeAt(i, PyDict(m)).value.id == DefaultNodeId(i)
    ensures "type" in m ==> m["type"] == PyStr(NodeAt(i, PyDict(m)).value.nodeType)
    ensures "type" !in m ==> NodeAt(i, PyDict(m)).value.nodeType == "cyberNode"
    ensures "position" in m ==> m["position"] == PyDict(IntValues(NodeAt(i, PyDict(m)).value.position))
    ensures "position" !in m ==> NodeAt(i, PyDict(m)).value.position == map["x" := 100 + 150 * i, "y" := 100 + 100 * i]
  {
    var n := NodeAt(i, PyDict(m)).value;
    if "position" in m {
      var e := m["position"].entries;
      assert IntValues(n.position) == e;
    } else {
      var r := IntEntries(DefaultPosition(i));
      assert r.Keys == {"x", "y"};
      assert r == map["x" := 100 + 150 * i, "y" := 100 + 100 * i];
    }
  }

  /** The keys under `data` are defaulted one by one in the same way; a missing `data` defaults all three. */
  lemma NodeDataDefaults(i: nat, m: map<string, PyValue>)
    requires NodeAt(i, PyDict(m)).Some?
    ensures "data" !in m ==>
      var n := NodeAt(i, PyDict(m)).value;
      n.dataLabel == "Unknown" && n.category == "EntityType" && n.props == []
    ensures "data" in m ==> m["data"].PyDict?
    ensures "data" in m && "label" in m["data"].entries ==>
      m["data"].entries["label"] == PyStr(NodeAt(i, PyDict(m)).value.dataLabel)
    ensures "data" in m && "label" !in m["data"].entries ==> NodeAt(i, PyDict(m)).value.dataLabel == "Unknown"
    ensures "data" in m && "category" in m["data"].entries ==>
      m["data"].entries["category"] == PyStr(NodeAt(i, PyDict(m)).value.category)
    ensures "data" in m && "category" !in m["data"].entries ==> NodeAt(i, PyDict(m)).value.category == "EntityType"
    ensures "data" in m && "props" in m["data"].entries ==>
      m["data"].entries["props"] == PyList(StrValues(NodeAt(i, PyDict(m)).value.props))
    ensures "data" in m && "props" !in m["data"].entries ==> NodeAt(i, PyDict(m)).value.props == []
  {
    var n := NodeAt(i, PyDict(m)).value;
    if "data" in m && "props" in m["data"].entries {
      var items := m["data"].entries["props"].items;
      assert StrValues(n.props) == items;
    }
  }

  /** Each key of an edge item is defaulted on its own: present keys are taken as they are. */
  lemma EdgeKeyDefaults(i: nat, m: map<string, PyValue>)
    requires EdgeAt(i, PyDict(m)).Some?
    ensures "id" in m ==> m["id"] == PyStr(EdgeAt(i, PyDict(m)).value.id)
    ensures "id" !in m ==> EdgeAt(i, PyDict(m)).value.id == DefaultEdgeId(i)
    ensures "source" in m ==> m["source"] == PyStr(EdgeAt(i, PyDict(m)).value.source)
    ensures "source" !in m ==> EdgeAt(i, PyDict(m)).value.source == ""
    ensures "target" in m ==> m["target"] == PyStr(EdgeAt(i, PyDict(m)).value.target)
    ensures "target" !in m ==> EdgeAt(i, PyDict(m)).value.target == ""
    ensures "label" in m ==> m["label"] == PyStr(EdgeAt(i, PyDict(m)).value.edgeLabel)
    ensures "label" !in m ==> EdgeAt(i, PyDict(m)).value.edgeLabel == ""
    ensures "animated" in m ==> m["animated"] == PyBool(EdgeAt(i, PyDict(m)).value.animated)
    ensures "animated" !in m ==> EdgeAt(i, PyDict(m)).value.animated
    ensures "type" in m ==> m["type"] == PyStr(EdgeAt(i, PyDict(m)).value.edgeType)
    ensures "type" !in m ==> EdgeAt(i, PyDict(m)).value.edgeType == "cyberEdge"
  {
  }

  /** Default ids of different indices never collide. */
  lemma {:induction false} DefaultIdsDistinct(i: nat, j: nat)
    requires i != j
    ensures DefaultNodeId(i) != DefaultNodeId(j)
    ensures DefaultEdgeId(i) != DefaultEdgeId(j)
  {
    if Text.NatToString(i) == Text.NatToString(j) {
      Text.NatToStringInjective(i, j);
    }
    assert DefaultNodeId(i)[5..] == Text.NatToString(i) && DefaultNodeId(j)[5..] == Text.NatToString(j);
    assert DefaultEdgeId(i)[5..] == Text.NatToString(i) && DefaultEdgeId(j)[5..] == Text.NatToString(j);
  }

  /** The node loop: one draft node per item, in order, or failure at the first item that does not fit. */
  method NormalizeNodes(items: seq<PyValue>) returns (r: Option<seq<DraftNode>>)
    ensures r.Some? <==> forall k :: 0 <= k < |items| ==> NodeAt(k, items[k]).Some?
    ensures r.Some? ==> |r.value| == |items|
    ensures r.Some? ==> forall k :: 0 <= k < |items| ==> NodeAt(k, items[k]) == Some(r.value[k])
  {
    var nodes: seq<DraftNode> := [];
    for i := 0 to |items|
      invariant |nodes| == i
      invariant forall k :: 0 <= k < i ==> NodeAt(k, items[k]) == Some(nodes[k])
    {
      var node := NodeAt(i, items[i]);
      if node.None? {
        return None;
      }
      nodes := nodes + [node.value];
    }
    return Some(nodes);
  }

  /** The edge loop: one draft edge per item, in order, or failure at the first item that does not fit. */
  method NormalizeEdges(items: seq<PyValue>) returns (r: Option<seq<DraftEdge>>)
    ensures r.Some? <==> forall k :: 0 <= k < |items| ==> EdgeAt(k, items[k]).Some?
    ensures r.Some? ==> |r.value| == |items|
    ensures r.Some? ==> forall k :: 0 <= k < |items| ==> EdgeAt(k, items[k]) == Some(r.value[k])
  {
    var edges: seq<DraftEdge> := [];
    for i := 0 to |items|
      invariant |edges| == i
      invariant forall k :: 0 <= k < i ==> EdgeAt(k, items[k]) == Some(edges[k])
    {
      var edge := EdgeAt(i, items[i]);
      if edge.None? {
        return None;
      }
      edges := edges + [edge.value];
    }
    return Some(edges);
  }

  /** Every node item and every edge item of the decoded value fits the draft models. */
  predicate FitsDraft(schema: PyValue) {
    && SchemaItems(schema, "nodes").Some?
    && SchemaItems(schema, "edges").Some?
    && (forall k :: 0 <= k < |SchemaItems(schema, "nodes").value| ==> NodeAt(k, SchemaItems(schema, "nodes").value[k]).Some?)
    && (forall k :: 0 <= k < |SchemaItems(schema, "edges").value| ==> EdgeAt(k, SchemaItems(schema, "edges").value[k]).Some?)
  }

  /**
   * `extractSchema` with the model call and `json.loads` given as inputs:
   * `reply` is what `call_llm` returns or raises, `parse` is `json.loads`.
   */
  method ExtractSchema(text: string, reply: Result<string, string>, parse: string -> ParseOutcome)
    returns (r: Result<SchemaDraft, HttpError>)
    ensures IsBlank(text) ==> r == Failure(HttpError(400, EmptyText))
    ensures !IsBlank(text) && reply.Failure? ==> r == Failure(HttpError(500, LlmFailure(reply.error)))
    ensures !IsBlank(text) && reply.Success? && JsonCandidate(reply.value).None? ==>
      r == Failure(HttpError(500, NoJsonFound))
    ensures (!IsBlank(text) && reply.Success? && JsonCandidate(reply.value).Some?
             && parse(JsonCandidate(reply.value).value).DecodeError?) ==>
      r == Failure(HttpError(500, UndecodableJson(parse(JsonCandidate(reply.value).value).message)))
    ensures (!IsBlank(text) && reply.Success? && JsonCandidate(reply.value).Some?
             && parse(JsonCandidate(reply.value).value).Parsed?) ==>
      var schema := parse(JsonCandidate(reply.value).value).value;
      && (r.Success? <==> FitsDraft(schema))
      && (r.Failure? ==> r.error == HttpError(500, InvalidShape))
      && (r.Success? ==>
            && |r.value.nodes| == |SchemaItems(schema, "nodes").value|
            && |r.value.edges| == |SchemaItems(schema, "edges").value|
            && (forall k :: 0 <= k < |r.value.nodes| ==> NodeAt(k, SchemaItems(schema, "nodes").value[k]) == Some(r.value.nodes[k]))
            && (forall k :: 0 <= k < |r.value.edges| ==> EdgeAt(k, SchemaItems(schema, "edges").value[k]) == Some(r.value.edges[k])))
  {
    if IsBlank(text) {
      return Failure(HttpError(400, EmptyText));
    }
    if reply.Failure? {
      return Failure(HttpError(500, LlmFailure(reply.error)));
    }
    var candidate := JsonCandidate(reply.value);
    if candidate.None? {
      return Failure(HttpError(500, NoJsonFound));
    }
    var parsed := parse(candidate.value);
    if parsed.DecodeError? {
      return Failure(HttpError(500, UndecodableJson(parsed.message)));
    }
    var schema := parsed.value;
    var nodeItems := SchemaItems(schema, "nodes");
    if nodeItems.None? {
      return Failure(HttpError(500, InvalidShape));
    }
    var nodes := NormalizeNodes(nodeItems.value);
    if nodes.None? {
      return Failure(HttpError(500, InvalidShape));
    }
    var edgeItems := SchemaItems(schema, "edges");
    if edgeItems.None? {
      return Failure(HttpError(500, InvalidShape));
    }
    var edges := NormalizeEdges(edgeItems.value);
    if edges.None? {
      return Failure(HttpError(500, InvalidShape));
    }
    return Success(SchemaDraft(nodes.value, edges.value));
  }

  /** `save_to_spg`: acknowledges with status "success" whatever the draft holds. */
  function SaveToSpg(draft: SchemaDraft, timestamp: string): (r: SaveReply)
    ensures r.status == "success" && r.timestamp == timestamp
  {
    SaveReply("success", "Schema 已同步至 OpenSPG", timestamp)
  }

  /** The reply does not depend on the draft. */
  lemma SaveIgnoresDraft(a: SchemaDraft, b: SchemaDraft, timestamp: string)
    ensures SaveToSpg(a, timestamp) == SaveToSpg(b, timestamp)
  {
  }
}

=== FILE: js_values.dfy ===
/**
 * The slice of JavaScript semantics the browser code relies on: loosely typed
 * values, truthiness, the value-returning `||`, property reads (which throw
 * on `null`/`undefined`), optional chaining `?.`, and the whitespace that
 * `String.prototype.trim` removes.
 */
module JsValues {

  import Text

  /** A JavaScript value as received from `response.json()`; numbers are integers here. */
  datatype Value =
    | Undefined
    | Null
    | Bool(b: bool)
    | Num(n: int)
    | Str(s: string)
    | Arr(items: seq<Value>)
    | Obj(fields: map<string, Value>)
  {
    /** `null` or `undefined`: reading a property of it throws a TypeError. */
    predicate IsNullish() {
      Undefined? || Null?
    }
  }

  /** The only exception the modelled code can raise by itself. */
  datatype JsError = TypeError

  /** JavaScript truthiness: `undefined`, `null`, `false`, `0` and `""` are falsy. */
  predicate Truthy(v: Value) {
    match v
    case Undefined => false
    case Null => false
    case Bool(b) => b
    case Num(n) => n != 0
    case Str(s) => s != ""
    case Arr(_) => true
    case Obj(_) => true
  }

  /** `a || b`: the left operand when it is truthy, the right one otherwise. */
  function Or(a: Value, b: Value): (r: Value)
    ensures Truthy(r) <==> Truthy(a) || Truthy(b)
    ensures r == a || r == b
  {
    if Truthy(a) then a else b
  }

  /** `v.key` on a value that is not `null`/`undefined`; a missing property reads as `undefined`. */
  function Get(v: Value, key: string): Value
    requires !v.IsNullish()
  {
    if v.Obj? && key in v.fields then v.fields[key] else Undefined
  }

  /** `v?.key`: `undefined` when `v` is `null`/`undefined`, `v.key` otherwise. */
  function GetOptional(v: Value, key: string): Value {
    if v.IsNullish() then Undefined else Get(v, key)
  }

  /** The characters `String.prototype.trim` removes: WhiteSpace and LineTerminator of ECMAScript. */
  predicate IsSpace(c: char) {
    c == '\t' || c == '\n' || c == '\U{B}' || c == '\U{C}' || c == '\r' || c == ' '
    || c == '\U{A0}' || c == '\U{1680}' || ('\U{2000}' <= c <= '\U{200A}')
    || c == '\U{2028}' || c == '\U{2029}' || c == '\U{202F}' || c == '\U{205F}'
    || c == '\U{3000}' || c == '\U{FEFF}'
  }

  /** `s.trim()`. */
  function Trim(s: string): string {
    Text.Trim(s, IsSpace)
  }

  /** `toLowerCase` never turns a character into whitespace or back, so trimming and lower-casing commute. */
  lemma LowerKeepsSpace()
    ensures forall c :: IsSpace(Text.LowerChar(c)) == IsSpace(c)
  {
  }
}

=== FILE: knowledge_base.dfy ===
/**
 * The knowledge-base list screen: the list shown is the fixed catalogue
 * filtered by the "created by me" checkbox and by a search keyword (the query
 * trimmed and lower-cased, matched as a substring of the lower-cased title);
 * `cn` builds class attributes by dropping falsy arguments and joining the
 * rest with single spaces.
 */
module KnowledgeBase {

  import opened Wrappers
  import Text
  import JsValues

  /** One card of the catalogue. */
  datatype Entry = Entry(
    id: int, icon: string, title: string, updateTime: string,
    isPrivate: bool, createdByMe: bool)

  /** `KNOWLEDGE_BASES`. */
  function KnowledgeBases(): seq<Entry> {
    [ Entry(1, "chart", "年报分析", "2024-05-20", true, true),
      Entry(2, "package", "产品中心", "2024-05-20", true, false),
      Entry(3, "cog", "ERP审批", "2024-05-20", true, true) ]
  }

  // ------------------------------------------------------------- filter

  /** `searchQuery.trim().toLowerCase()`. */
  function Keyword(query: string): string {
    Text.Lower(JsValues.Trim(query))
  }

  /** The `filter` callback, given the keyword already computed. */
  predicate Shown(kb: Entry, keyword: string, showMyCreated: bool) {
    if showMyCreated && !kb.createdByMe then false
    else if keyword == "" then true
    else Text.Contains(Text.Lower(kb.title), keyword)
  }

  /** The entries of `kbs` the callback keeps, in their order. */
  function FilterBy(kbs: seq<Entry>, keyword: string, showMyCreated: bool): seq<Entry> {
    if kbs == [] then []
    else if Shown(kbs[0], keyword, showMyCreated) then [kbs[0]] + FilterBy(kbs[1..], keyword, showMyCreated)
    else FilterBy(kbs[1..], keyword, showMyCreated)
  }

  /** `filteredKnowledgeBases` over a catalogue `kbs`. */
  function Filter(kbs: seq<Entry>, query: string, showMyCreated: bool): seq<Entry> {
    FilterBy(kbs, Keyword(query), showMyCreated)
  }

  /** `filteredKnowledgeBases` as the screen computes it. */
  function FilteredKnowledgeBases(query: string, showMyCreated: bool): seq<Entry> {
    Filter(KnowledgeBases(), query, showMyCreated)
  }

  /** `a` is `b` with some elements left out, the rest in their order. */
  predicate IsSubsequence<T(==)>(a: seq<T>, b: seq<T>) {
    if a == [] then true
    else if b == [] then false
    else (a[0] == b[0] && IsSubsequence(a[1..], b[1..])) || IsSubsequence(a, b[1..])
  }

  /** Filtering keeps the catalogue order: the result is a subsequence of the input. */
  lemma {:induction false} FilterIsSubsequence(kbs: seq<Entry>, keyword: string, showMyCreated: bool)
    ensures IsSubsequence(FilterBy(kbs, keyword, showMyCreated), kbs)
  {
    if kbs != [] {
      FilterIsSubsequence(kbs[1..], keyword, showMyCreated);
      var rest := FilterBy(kbs[1..], keyword, showMyCreated);
      if !Shown(kbs[0], keyword, showMyCreated) && rest != [] {
        assert FilterBy(kbs, keyword, showMyCreated) == rest;
      }
    }
  }

  /** An entry is listed exactly when it is in the catalogue and the callback keeps it. */
  lemma {:induction false} FilterMembership(kbs: seq<Entry>, keyword: string, showMyCreated: bool, e: Entry)
    ensures e in FilterBy(kbs, keyword, showMyCreated) <==> e in kbs && Shown(e, keyword, showMyCreated)
  {
    if kbs != [] {
      FilterMembership(kbs[1..], keyword, showMyCreated, e);
      assert kbs == [kbs[0]] + kbs[1..];
    }
  }

  /**
   * What the screen lists: with the checkbox on, only own entries; with an
   * empty keyword, every entry that passes the checkbox; otherwise exactly the
   * entries whose lower-cased title contains the keyword.
   */
  lemma FilterMeaning(kbs: seq<Entry>, query: string, showMyCreated: bool, e: Entry)
    ensures e in Filter(kbs, query, showMyCreated) && showMyCreated ==> e.createdByMe
    ensures Keyword(query) == "" ==>
      (e in Filter(kbs, query, showMyCreated) <==> e in kbs && (!showMyCreated || e.createdByMe))
    ensures Keyword(query) != "" ==>
      (e in Filter(kbs, query, showMyCreated) <==>
         e in kbs && (!showMyCreated || e.createdByMe) && Text.Contains(Text.Lower(e.title), Keyword(query)))
  {
    FilterMembership(kbs, Keyword(query), showMyCreated, e);
  }

  /** With an empty keyword and the checkbox off, the whole catalogue is listed. */
  lemma {:induction false} EmptyQueryListsAll(kbs: seq<Entry>, query: string)
    requires Keyword(query) == ""
    ensures Filter(kbs, query, false) == kbs
  {
    if kbs != [] {
      EmptyQueryListsAll(kbs[1..], query);
      assert kbs == [kbs[0]] + kbs[1..];
    }
  }

  /** Turning the checkbox on never adds an entry: the list shrinks to a subsequence of the unfiltered one. */
  lemma {:induction false} OwnerFilterOnlyRemoves(kbs: seq<Entry>, keyword: string)
    ensures IsSubsequence(FilterBy(kbs, keyword, true), FilterBy(kbs, keyword, false))
  {
    if kbs != [] {
      OwnerFilterOnlyRemoves(kbs[1..], keyword);
      var on, off := FilterBy(kbs[1..], keyword, true), FilterBy(kbs[1..], keyword, false);
      if Shown(kbs[0], keyword, true) {
        assert FilterBy(kbs, keyword, true) == [kbs[0]] + on;
        assert FilterBy(kbs, keyword, false) == [kbs[0]] + off;
      } else if Shown(kbs[0], keyword, false) {
        SubsequenceOfTail(FilterBy(kbs, keyword, true), kbs[0], off);
      }
    }
  }

  lemma {:induction false} SubsequenceOfTail<T>(a: seq<T>, x: T, b: seq<T>)
    requires IsSubsequence(a, b)
    ensures IsSubsequence(a, [x] + b)
  {
    assert ([x] + b)[1..] == b;
  }

  /** Queries that differ only in letter case list the same entries. */
  lemma QueryIgnoresCase(kbs: seq<Entry>, q1: string, q2: string, showMyCreated: bool)
    requires Text.Lower(q1) == Text.Lower(q2)
    ensures Filter(kbs, q1, showMyCreated) == Filter(kbs, q2, showMyCreated)
  {
    JsValues.LowerKeepsSpace();
    Text.LowerTrimCommute(q1, JsValues.IsSpace);
    Text.LowerTrimCommute(q2, JsValues.IsSpace);
    assert Keyword(q1) == Keyword(q2);
  }

  /** Whitespace around the query does not change the list. */
  lemma QueryIgnoresSurroundingSpace(kbs: seq<Entry>, pre: string, q: string, post: string, showMyCreated: bool)
    requires Text.AllIn(pre, JsValues.IsSpace) && Text.AllIn(post, JsValues.IsSpace)
    ensures Filter(kbs, pre + q + post, showMyCreated) == Filter(kbs, q, showMyCreated)
  {
    Text.TrimIgnoresSurroundingBlanks(pre, q, post, JsValues.IsSpace);
  }

  /** The shipped catalogue with an empty search box and the checkbox ticked keeps the two bases the user created. */
  lemma CatalogueOwnOnly()
    ensures FilteredKnowledgeBases("", true) == [KnowledgeBases()[0], KnowledgeBases()[2]]
  {
    assert Keyword("") == "";
  }

  // ---------------------------------------------------------- checkbox

  /** The checkbox handler `prev => !prev`. */
  function Toggled(showMyCreated: bool): bool {
    !showMyCreated
  }

  /** Clicking the checkbox twice restores the filter. */
  lemma ToggleTwiceRestores(showMyCreated: bool)
    ensures Toggled(Toggled(showMyCreated)) == showMyCreated
  {
  }

  // ----------------------------------------------------------------- cn

  /** `classes.filter(Boolean)`: an argument is a class string or a falsy non-string (`None`). */
  function Kept(classes: seq<Option<string>>): (r: seq<string>)
    ensures forall k :: 0 <= k < |r| ==> r[k] != ""
    ensures forall s: string :: s != "" ==> multiset(r)[s] == multiset(classes)[Some(s)]
  {
    if classes == [] then []
    else
      assert classes == [classes[0]] + classes[1..];
      if classes[0].Some? && classes[0].value != "" then [classes[0].value] + Kept(classes[1..])
      else Kept(classes[1..])
  }

  /** The kept arguments stay in argument order: keeping distributes over concatenation. */
  lemma {:induction false} KeptAppend(a: seq<Option<string>>, b: seq<Option<string>>)
    ensures Kept(a + b) == Kept(a) + Kept(b)
  {
    if a == [] {
      assert a + b == b;
    } else {
      assert (a + b)[1..] == a[1..] + b;
      KeptAppend(a[1..], b);
    }
  }

  /** `cn(...classes)`. */
  function Cn(classes: seq<Option<string>>): string {
    Text.Join(" ", Kept(classes))
  }

  /** The class names of several class strings, one after the other. */
  function AllClassNames(parts: seq<string>): seq<string> {
    if parts == [] then [] else Text.ClassNames(parts[0]) + AllClassNames(parts[1..])
  }

  /**
   * The element's class list is the class lists of the truthy arguments, in
   * argument order: joining with a single space neither merges nor loses names.
   */
  lemma {:induction false} CnClassList(classes: seq<Option<string>>)
    ensures Text.ClassNames(Cn(classes)) == AllClassNames(Kept(classes))
  {
    JoinClassNames(Kept(classes));
  }

  lemma {:induction false} JoinClassNames(parts: seq<string>)
    ensures Text.ClassNames(Text.Join(" ", parts)) == AllClassNames(parts)
  {
    if |parts| == 1 {
      assert AllClassNames(parts[1..]) == [];
    } else if |parts| > 1 {
      JoinClassNames(parts[1..]);
      var rest := Text.Join(" ", parts[1..]);
      assert Text.Join(" ", parts) == parts[0] + [' '] + rest;
      Text.ClassNamesSplitAt(parts[0], ' ', rest, "");
    }
  }

  /** A single class name without whitespace reads back as itself. */
  lemma {:induction false} SingleClassName(s: string, cur: string)
    requires forall k :: 0 <= k < |s| ==> !Text.IsAsciiWhitespace(s[k])
    requires cur + s != ""
    ensures Text.ClassNamesFrom(s, cur) == [cur + s]
  {
    if s != [] {
      assert (cur + [s[0]]) + s[1..] == cur + s;
      SingleClassName(s[1..], cur + [s[0]]);
    } else {
      assert cur + s == cur;
    }
  }

  /** When every argument is one class name, the class list is exactly the truthy arguments in order. */
  lemma {:induction false} CnRoundTrip(classes: seq<Option<string>>)
    requires forall k :: 0 <= k < |classes| && classes[k].Some? ==>
      forall j :: 0 <= j < |classes[k].value| ==> !Text.IsAsciiWhitespace(classes[k].value[j])
    ensures Text.ClassNames(Cn(classes)) == Kept(classes)
  {
    CnClassList(classes);
    KeptWordsReadBack(classes);
  }

  lemma {:induction false} KeptWordsReadBack(classes: seq<Option<string>>)
    requires forall k :: 0 <= k < |classes| && classes[k].Some? ==>
      forall j :: 0 <= j < |classes[k].value| ==> !Text.IsAsciiWhitespace(classes[k].value[j])
    ensures AllClassNames(Kept(classes)) == Kept(classes)
  {
    if classes != [] {
      KeptWordsReadBack(classes[1..]);
      if classes[0].Some? && classes[0].value != "" {
        SingleClassName(classes[0].value, "");
        assert "" + classes[0].value == classes[0].value;
        assert Kept(classes)[1..] == Kept(classes[1..]);
      }
    }
  }
}

=== FILE: schema_store.dfy ===
/**
 * The client-side schema store (`useSchemaStore`): the node and edge lists of
 * the canvas, the `isSyncing` flag and the list of validation errors, with
 * the operations that change them. `updateSchema` turns a loosely typed
 * backend payload into canonical nodes and edges, accepting lower-camel and
 * upper-camel field names with a fixed precedence; `syncToBackend` maps the
 * server's answer to validation-error records, extracting a node id from
 * messages of the form `Node <digits>:`.
 */
module SchemaStore {

  import opened Wrappers
  import opened JsValues

  // ---------------------------------------------------------------- data

  /** reactflow's closed-arrow edge marker. */
  datatype MarkerType = ArrowClosed

  /** A node as the canvas holds it; `dataLabel` and `category` are `data.label` and `data.category`. */
  datatype FlowNode = FlowNode(id: Value, nodeType: string, position: Value, dataLabel: Value, category: Value)

  /** An edge as the canvas holds it; `markerEnd` is absent on the initial edge. */
  datatype FlowEdge = FlowEdge(
    id: Value, source: Value, target: Value, edgeType: string,
    animated: bool, edgeLabel: Value, markerEnd: Option<MarkerType>)

  /** The whole graph: what `updateSchema` installs and what `syncToBackend` posts. */
  datatype Graph = Graph(nodes: seq<FlowNode>, edges: seq<FlowEdge>)

  /** What `updateSchema` returns to its caller for the status text. */
  datatype Counts = Counts(nodeCount: nat, edgeCount: nat)

  /** The `nodeId` property of a validation-error record: missing, `null`, or the captured digits. */
  datatype NodeIdField = Absent | NullId | NodeId(id: string)

  /** One entry of `syncErrors`. */
  datatype SyncError = SyncError(message: string, nodeId: NodeIdField)

  /** The body of an HTTP answer as `response.json()` sees it: its `errors` field, or a parse failure. */
  datatype ResponseBody = JsonBody(errors: Option<seq<string>>) | MalformedBody(message: string)

  /** How the POST to the sync endpoint settles. */
  datatype SyncResponse =
    | Http(status: int, statusText: string, body: ResponseBody)
    | NetworkError(message: string)

  /** A `{x, y}` point. */
  function Point(x: int, y: int): Value {
    Obj(map["x" := Num(x), "y" := Num(y)])
  }

  /** The two nodes the canvas starts with. */
  function InitialNodes(): seq<FlowNode> {
    [ FlowNode(Str("1"), "custom", Point(450, 180), Str("Concept"), Undefined),
      FlowNode(Str("2"), "custom", Point(450, 420), Str("Entity"), Undefined) ]
  }

  /** The one edge the canvas starts with, from node 1 to node 2. */
  function InitialEdges(): seq<FlowEdge> {
    [ FlowEdge(Str("e1-2"), Str("1"), Str("2"), "energy", true, Undefined, None) ]
  }

  // ------------------------------------------------------- normalisation

  /** Reference reading of a chain `c0 || c1 || ... || fallback`: the first truthy candidate, else the fallback. */
  function FirstTruthy(candidates: seq<Value>, fallback: Value): (r: Value)
    ensures Truthy(r) <==> Truthy(fallback) || exists i :: 0 <= i < |candidates| && Truthy(candidates[i])
  {
    if candidates == [] then fallback
    else if Truthy(candidates[0]) then candidates[0]
    else FirstTruthy(candidates[1..], fallback)
  }

  /** One backend node object mapped to the canvas shape; reading a field of `null`/`undefined` throws. */
  function NormalizeNode(v: Value): (r: Result<FlowNode, JsError>)
    ensures r.Failure? <==> v.IsNullish()
    ensures r.Success? ==> r.value.nodeType == "custom" && Truthy(r.value.position)
    ensures r.Success? ==> Truthy(r.value.dataLabel) && r.value.dataLabel != Str("")
  {
    if v.IsNullish() then Failure(TypeError)
    else
      var data := Get(v, "data");
      Success(FlowNode(
        Or(Get(v, "id"), Get(v, "ID")),
        "custom",
        Or(Or(Get(v, "position"), Get(v, "Position")), Point(0, 0)),
        Or(Or(Or(GetOptional(data, "label"), Get(v, "Label")), Get(v, "label")), Str("Node")),
        Or(Get(v, "Category"), Get(v, "category"))))
  }

  /** One backend edge object mapped to the canvas shape. */
  function NormalizeEdge(v: Value): (r: Result<FlowEdge, JsError>)
    ensures r.Failure? <==> v.IsNullish()
    ensures r.Success? ==> r.value.edgeType == "energy" && r.value.animated
    ensures r.Success? ==> r.value.markerEnd == Some(ArrowClosed)
  {
    if v.IsNullish() then Failure(TypeError)
    else
      Success(FlowEdge(
        Or(Get(v, "id"), Get(v, "ID")),
        Or(Get(v, "source"), Get(v, "Source")),
        Or(Get(v, "target"), Get(v, "Target")),
        "energy",
        true,
        Or(Get(v, "label"), Get(v, "Label")),
        Some(ArrowClosed)))
  }

  /** `items.map(f)`: all elements mapped in order, or the first exception. */
  function MapAll<T>(items: seq<Value>, f: Value -> Result<T, JsError>): (r: Result<seq<T>, JsError>)
    ensures r.Success? <==> forall i :: 0 <= i < |items| ==> f(items[i]).Success?
    ensures r.Success? ==> |r.value| == |items|
    ensures r.Success? ==> forall i :: 0 <= i < |items| ==> f(items[i]) == Success(r.value[i])
  {
    if items == [] then Success([])
    else
      match f(items[0])
      case Failure(e) => Failure(e)
      case Success(x) =>
        match MapAll(items[1..], f)
        case Failure(e) => Failure(e)
        case Success(xs) => Success([x] + xs)
  }

  /** `(payload[key] || [])` as the receiver of `.map`: falsy reads as empty, a non-array throws. */
  function ListField(payload: Value, key: string): (r: Result<seq<Value>, JsError>)
    requires !payload.IsNullish()
    ensures !Truthy(Get(payload, key)) ==> r == Success([])
    ensures Get(payload, key).Arr? ==> r == Success(Get(payload, key).items)
    ensures r.Success? <==> !Truthy(Get(payload, key)) || Get(payload, key).Arr?
    ensures r.Failure? ==> r.error == TypeError
  {
    var x := Get(payload, key);
    if !Truthy(x) then Success([])
    else if x.Arr? then Success(x.items)
    else Failure(TypeError)
  }

  /** The graph `updateSchema` installs: nodes first, then edges; any exception leaves nothing installed. */
  function NormalizeSchema(payload: Value): (r: Result<Graph, JsError>)
    ensures payload.IsNullish() ==> r.Failure?
    ensures r.Success? ==> forall i :: 0 <= i < |r.value.nodes| ==> r.value.nodes[i].nodeType == "custom"
    ensures r.Success? ==> forall i :: 0 <= i < |r.value.edges| ==>
      r.value.edges[i].edgeType == "energy" && r.value.edges[i].animated
  {
    if payload.IsNullish() then Failure(TypeError)
    else
      match ListField(payload, "nodes")
      case Failure(e) => Failure(e)
      case Success(rawNodes) =>
        match MapAll(rawNodes, NormalizeNode)
        case Failure(e) => Failure(e)
        case Success(nodes) =>
          match ListField(payload, "edges")
          case Failure(e) => Failure(e)
          case Success(rawEdges) =>
            match MapAll(rawEdges, NormalizeEdge)
            case Failure(e) => Failure(e)
            case Success(edges) => Success(Graph(nodes, edges))
  }

  /**
   * `updateSchema` succeeds exactly when the payload is an object whose node and
   * edge lists are arrays (or absent/falsy) without `null`/`undefined` entries; then
   * the graph has one node per input node and one edge per input edge, in order.
   */
  lemma NormalizeSchemaShape(payload: Value)
    ensures NormalizeSchema(payload).Success? <==>
      && !payload.IsNullish()
      && ListField(payload, "nodes").Success?
      && ListField(payload, "edges").Success?
      && (forall i :: 0 <= i < |ListField(payload, "nodes").value| ==> !ListField(payload, "nodes").value[i].IsNullish())
      && (forall i :: 0 <= i < |ListField(payload, "edges").value| ==> !ListField(payload, "edges").value[i].IsNullish())
    ensures NormalizeSchema(payload).Success? ==>
      && |NormalizeSchema(payload).value.nodes| == |ListField(payload, "nodes").value|
      && |NormalizeSchema(payload).value.edges| == |ListField(payload, "edges").value|
      && (forall i :: 0 <= i < |ListField(payload, "nodes").value| ==>
            NormalizeNode(ListField(payload, "nodes").value[i]) == Success(NormalizeSchema(payload).value.nodes[i]))
      && (forall i :: 0 <= i < |ListField(payload, "edges").value| ==>
            NormalizeEdge(ListField(payload, "edges").value[i]) == Success(NormalizeSchema(payload).value.edges[i]))
  {
    if !payload.IsNullish() && ListField(payload, "nodes").Success? {
      var rawNodes := ListField(payload, "nodes").value;
      var mapped := MapAll(rawNodes, NormalizeNode);
      if mapped.Failure? {
        var i :| 0 <= i < |rawNodes| && NormalizeNode(rawNodes[i]).Failure?;
      }
      if mapped.Success? && ListField(payload, "edges").Success? {
        var rawEdges := ListField(payload, "edges").value;
        if MapAll(rawEdges, NormalizeEdge).Failure? {
          var i :| 0 <= i < |rawEdges| && NormalizeEdge(rawEdges[i]).Failure?;
        }
      }
    }
  }

  /** A payload object without `nodes`/`edges` fields yields an empty graph. */
  lemma AbsentListsAreEmpty(fields: map<string, Value>)
    requires "nodes" !in fields && "edges" !in fields
    ensures NormalizeSchema(Obj(fields)) == Success(Graph([], []))
  {
  }

  /** The node label follows `data.label`, `Label`, `label`, then `'Node'`, skipping falsy values. */
  lemma NodeFieldPrecedence(v: Value)
    requires !v.IsNullish()
    ensures NormalizeNode(v).value.dataLabel ==
      FirstTruthy([GetOptional(Get(v, "data"), "label"), Get(v, "Label"), Get(v, "label")], Str("Node"))
    ensures NormalizeNode(v).value.position == FirstTruthy([Get(v, "position"), Get(v, "Position")], Point(0, 0))
    ensures NormalizeNode(v).value.id == FirstTruthy([Get(v, "id")], Get(v, "ID"))
    ensures NormalizeNode(v).value.category == FirstTruthy([Get(v, "Category")], Get(v, "category"))
  {
    var a, b, c := GetOptional(Get(v, "data"), "label"), Get(v, "Label"), Get(v, "label");
    assert [a, b, c][1..] == [b, c] && [b, c][1..] == [c] && [c][1..] == [];
    assert FirstTruthy([c], Str("Node")) == Or(c, Str("Node"));
    assert FirstTruthy([b, c], Str("Node")) == Or(Or(b, c), Str("Node"));
    assert FirstTruthy([a, b, c], Str("Node")) == Or(Or(Or(a, b), c), Str("Node"));
    var x, y := Get(v, "position"), Get(v, "Position");
    assert [x, y][1..] == [y] && [y][1..] == [];
    assert FirstTruthy([y], Point(0, 0)) == Or(y, Point(0, 0));
    assert FirstTruthy([x, y], Point(0, 0)) == Or(Or(x, y), Point(0, 0));
    assert [Get(v, "id")][1..] == [];
    assert [Get(v, "Category")][1..] == [];
  }

  /** Each edge field takes the lower-camel value when truthy, else the upper-camel one. */
  lemma EdgeFieldPrecedence(v: Value)
    requires NormalizeEdge(v).Success?
    ensures NormalizeEdge(v).value.id == FirstTruthy([Get(v, "id")], Get(v, "ID"))
    ensures NormalizeEdge(v).value.source == FirstTruthy([Get(v, "source")], Get(v, "Source"))
    ensures NormalizeEdge(v).value.target == FirstTruthy([Get(v, "target")], Get(v, "Target"))
    ensures NormalizeEdge(v).value.edgeLabel == FirstTruthy([Get(v, "label")], Get(v, "Label"))
  {
    assert [Get(v, "id")][1..] == [];
    assert [Get(v, "source")][1..] == [];
    assert [Get(v, "target")][1..] == [];
    assert [Get(v, "label")][1..] == [];
  }

  /** No upper-camel-only spelling among the keys. */
  predicate LowerCamelOnly(fields: map<string, Value>) {
    "ID" !in fields && "Label" !in fields && "Position" !in fields && "Category" !in fields
    && "Source" !in fields && "Target" !in fields
  }

  /** No lower-camel spelling among the keys. */
  predicate UpperCamelOnly(fields: map<string, Value>) {
    "id" !in fields && "label" !in fields && "position" !in fields && "category" !in fields
    && "data" !in fields && "source" !in fields && "target" !in fields
  }

  /** A field copied through `x || <missing field>`: truthy values verbatim, falsy ones become `undefined`. */
  function Verbatim(x: Value): Value {
    if Truthy(x) then x else Undefined
  }

  /**
   * A node written in either casing convention keeps its id, position, label and
   * category (a falsy lower-camel `id` reads as `undefined`, as does a falsy
   * `Category`).
   */
  lemma NodeEitherCasing(fields: map<string, Value>)
    ensures LowerCamelOnly(fields) ==>
      var n := NormalizeNode(Obj(fields)).value;
      && n.id == Verbatim(Get(Obj(fields), "id"))
      && n.category == Get(Obj(fields), "category")
      && (Truthy(Get(Obj(fields), "position")) ==> n.position == Get(Obj(fields), "position"))
      && ("data" !in fields && Truthy(Get(Obj(fields), "label")) ==> n.dataLabel == Get(Obj(fields), "label"))
    ensures UpperCamelOnly(fields) ==>
      var n := NormalizeNode(Obj(fields)).value;
      && n.id == Get(Obj(fields), "ID")
      && n.category == Verbatim(Get(Obj(fields), "Category"))
      && (Truthy(Get(Obj(fields), "Position")) ==> n.position == Get(Obj(fields), "Position"))
      && (Truthy(Get(Obj(fields), "Label")) ==> n.dataLabel == Get(Obj(fields), "Label"))
  {
  }

  /**
   * An edge written in either casing convention keeps its id, source, target
   * and label: upper-camel fields verbatim, lower-camel ones verbatim when truthy.
   */
  lemma EdgeEitherCasing(fields: map<string, Value>)
    ensures LowerCamelOnly(fields) ==>
      var e := NormalizeEdge(Obj(fields)).value;
      e.id == Verbatim(Get(Obj(fields), "id")) && e.source == Verbatim(Get(Obj(fields), "source"))
      && e.target == Verbatim(Get(Obj(fields), "target")) && e.edgeLabel == Verbatim(Get(Obj(fields), "label"))
    ensures UpperCamelOnly(fields) ==>
      var e := NormalizeEdge(Obj(fields)).value;
      e.id == Get(Obj(fields), "ID") && e.source == Get(Obj(fields), "Source")
      && e.target == Get(Obj(fields), "Target") && e.edgeLabel == Get(Obj(fields), "Label")
  {
  }

  // ------------------------------------------------- node id from message

  predicate IsDigit(c: char) {
    '0' <= c <= '9'
  }

  /** Length of the run of digits that starts at index `i`. */
  function DigitRun(s: string, i: nat): (k: nat)
    requires i <= |s|
    ensures i + k <= |s|
    ensures forall j :: i <= j < i + k ==> IsDigit(s[j])
    ensures i + k < |s| ==> !IsDigit(s[i + k])
    decreases |s| - i
  {
    if i < |s| && IsDigit(s[i]) then 1 + DigitRun(s, i + 1) else 0
  }

  /** The regular expression `/Node (\d+):/` matches `s` at index `p` with `d` as its capture. */
  ghost predicate MatchesAt(s: string, p: nat, d: string) {
    && p + 5 + |d| < |s|
    && s[p..p + 5] == "Node "
    && d != []
    && (forall j :: 0 <= j < |d| ==> IsDigit(d[j]))
    && s[p + 5..p + 5 + |d|] == d
    && s[p + 5 + |d|] == ':'
  }

  /** The pattern matches nowhere at an index in `[lo, hi)`. */
  ghost predicate NoMatchIn(s: string, lo: nat, hi: nat) {
    forall q: nat, d :: lo <= q < hi ==> !MatchesAt(s, q, d)
  }

  /** At a given index the capture, if any, is the whole digit run: `\d+` is greedy and `:` is no digit. */
  lemma CaptureIsDigitRun(s: string, p: nat, d: string)
    requires MatchesAt(s, p, d)
    ensures DigitRun(s, p + 5) == |d|
  {
  }

  /** The capture of the pattern at index `p`, if it matches there. */
  function CaptureAt(s: string, p: nat): (r: Option<string>)
    requires p <= |s|
    ensures r.Some? ==> r.value != "" && forall k :: 0 <= k < |r.value| ==> IsDigit(r.value[k])
  {
    if p + 5 <= |s| && s[p..p + 5] == "Node " then
      var k := DigitRun(s, p + 5);
      if k > 0 && p + 5 + k < |s| && s[p + 5 + k] == ':' then Some(s[p + 5..p + 5 + k]) else None
    else None
  }

  /** `CaptureAt` finds the match at `p` exactly when there is one. */
  lemma CaptureAtMatches(s: string, p: nat)
    requires p <= |s|
    ensures CaptureAt(s, p).Some? ==> MatchesAt(s, p, CaptureAt(s, p).value)
    ensures CaptureAt(s, p).None? ==> forall d :: !MatchesAt(s, p, d)
  {
    if CaptureAt(s, p).None? {
      forall d | MatchesAt(s, p, d) ensures false {
        CaptureIsDigitRun(s, p, d);
      }
    }
  }

  /** Leftmost match at an index `>= p`. */
  function SearchFrom(s: string, p: nat): (r: Option<string>)
    requires p <= |s|
    ensures r.None? ==> NoMatchIn(s, p, |s| + 1)
    ensures r.Some? ==> exists q :: p <= q <= |s| && MatchesAt(s, q, r.value) && NoMatchIn(s, p, q)
    decreases |s| - p
  {
    CaptureAtMatches(s, p);
    match CaptureAt(s, p)
    case Some(d) => Some(d)
    case None =>
      if p == |s| then None
      else
        var r := SearchFrom(s, p + 1);
        assert NoMatchIn(s, p, p + 1);
        r
  }

  /**
   * `extractNodeIdFromError`: the digits captured by the leftmost match of
   * `/Node (\d+):/`, or nothing (`null`) when the pattern does not occur.
   */
  function ExtractNodeIdFromError(message: string): (r: Option<string>)
    ensures r.None? <==> NoMatchIn(message, 0, |message| + 1)
    ensures r.Some? ==> exists p: nat :: p <= |message| && MatchesAt(message, p, r.value) && NoMatchIn(message, 0, p)
  {
    SearchFrom(message, 0)
  }

  /** The pattern has at most one capture at a given index. */
  lemma MatchIsUnique(s: string, p: nat, d1: string, d2: string)
    requires MatchesAt(s, p, d1) && MatchesAt(s, p, d2)
    ensures d1 == d2
  {
    CaptureIsDigitRun(s, p, d1);
    CaptureIsDigitRun(s, p, d2);
  }

  /** Conversely, the capture of the leftmost match is what `extractNodeIdFromError` returns. */
  lemma LeftmostMatchIsExtracted(s: string, p: nat, d: string)
    requires MatchesAt(s, p, d) && NoMatchIn(s, 0, p)
    ensures ExtractNodeIdFromError(s) == Some(d)
  {
    var r := ExtractNodeIdFromError(s);
    assert !NoMatchIn(s, 0, |s| + 1);
    var q: nat :| q <= |s| && MatchesAt(s, q, r.value) && NoMatchIn(s, 0, q);
    assert !(q < p) && !(p < q);
    MatchIsUnique(s, p, d, r.value);
  }

  /** A match starts with the capital `N` of `Node`. */
  lemma MatchStartsWithN(s: string, q: nat, d: string)
    ensures MatchesAt(s, q, d) ==> 'N' in s
  {
    if MatchesAt(s, q, d) {
      assert s[q] == s[q..q + 5][0];
    }
  }

  /** A message without a capital `N` names no node. */
  lemma NoNodeWithoutCapitalN(s: string)
    requires 'N' !in s
    ensures ExtractNodeIdFromError(s) == None
  {
    forall q: nat, d | q < |s| + 1 ensures !MatchesAt(s, q, d) {
      MatchStartsWithN(s, q, d);
    }
  }

  /** A message naming node 3 yields "3". */
  lemma NodeIdFound(message: string)
    requires message == "Node 3: missing category"
    ensures ExtractNodeIdFromError(message) == Some("3")
  {
    assert message[..5] == "Node " && message[6] == ':';
    assert MatchesAt(message, 0, "3");
    LeftmostMatchIsExtracted(message, 0, "3");
  }

  /** A message naming no node yields null. */
  lemma NodeIdAbsent(message: string)
    requires message == "Unknown error"
    ensures ExtractNodeIdFromError(message) == None
  {
    NoNodeWithoutCapitalN(message);
  }

  // ----------------------------------------------------------- sync outcome

  /** `response.ok`. */
  predicate IsOk(status: int) {
    200 <= status <= 299
  }

  /** The `nodeId` of a 422 record: the captured digits, or `null`. */
  function NodeIdFieldOf(capture: Option<string>): NodeIdField {
    match capture
    case Some(d) => NodeId(d)
    case None => NullId
  }

  /** `errors.map(error => ({message: error, nodeId: extractNodeIdFromError(error)}))`. */
  function ValidationErrors(errors: seq<string>): (r: seq<SyncError>)
    ensures |r| == |errors|
    ensures forall i :: 0 <= i < |r| ==> r[i].message == errors[i]
    ensures forall i :: 0 <= i < |r| ==> r[i].nodeId == NodeIdFieldOf(ExtractNodeIdFromError(errors[i]))
  {
    if errors == [] then []
    else [SyncError(errors[0], NodeIdFieldOf(ExtractNodeIdFromError(errors[0])))] + ValidationErrors(errors[1..])
  }

  /** The message of the exception the sync handler catches, if the response throws one. */
  function ThrownMessage(response: SyncResponse): (r: Option<string>)
    ensures r.None? <==> response.Http? && response.body.JsonBody? && (IsOk(response.status) || response.status == 422)
  {
    match response
    case NetworkError(m) => Some(m)
    case Http(status, text, body) =>
      if body.MalformedBody? && (IsOk(status) || status == 422) then Some(body.message)
      else if !IsOk(status) && status != 422 then Some("Sync failed: " + text)
      else None
  }

  /** The value of `syncErrors` once a sync call has settled with `response`. */
  function SyncOutcome(response: SyncResponse): (r: seq<SyncError>)
    ensures ThrownMessage(response).Some? ==> |r| == 1 && r[0].nodeId.Absent?
    ensures ThrownMessage(response).None? ==> forall i :: 0 <= i < |r| ==> !r[i].nodeId.Absent?
  {
    match ThrownMessage(response)
    case Some(m) => [SyncError(m, Absent)]
    case None =>
      if response.Http? && response.status == 422 then ValidationErrors(response.body.errors.GetOr([]))
      else []
  }

  /** A 2xx answer with a readable body leaves no validation errors, whatever came before. */
  lemma SuccessClearsErrors(status: int, text: string, errors: Option<seq<string>>)
    requires IsOk(status)
    ensures SyncOutcome(Http(status, text, JsonBody(errors))) == []
  {
  }

  /**
   * A 422 answer yields one record per error string, in order, message kept,
   * each with a `nodeId` property (the captured digits or `null`); a missing
   * `errors` field yields no records.
   */
  lemma ValidationFailureKeepsEveryMessage(text: string, errors: seq<string>)
    ensures var out := SyncOutcome(Http(422, text, JsonBody(Some(errors))));
      && |out| == |errors|
      && (forall i :: 0 <= i < |out| ==> out[i].message == errors[i] && !out[i].nodeId.Absent?)
      && (forall i :: 0 <= i < |out| ==> (out[i].nodeId.NullId? <==> NoMatchIn(errors[i], 0, |errors[i]| + 1)))
    ensures SyncOutcome(Http(422, text, JsonBody(None))) == []
  {
  }

  /** Any other status, a thrown network error or an unreadable body yields exactly one record, without `nodeId`. */
  lemma OtherFailuresGiveOneRecord(response: SyncResponse)
    requires response.NetworkError? || (!IsOk(response.status) && response.status != 422) || response.body.MalformedBody?
    ensures |SyncOutcome(response)| == 1 && SyncOutcome(response)[0].nodeId == Absent
    ensures response.NetworkError? ==> SyncOutcome(response)[0].message == response.message
    ensures response.Http? && !IsOk(response.status) && response.status != 422 ==>
      SyncOutcome(response)[0].message == "Sync failed: " + response.statusText
    ensures response.Http? && response.body.MalformedBody? && (IsOk(response.status) || response.status == 422) ==>
      SyncOutcome(response)[0].message == response.body.message
  {
  }

  /** Records without a `nodeId` property come only from the catch path, never from a 422 list. */
  lemma AbsentNodeIdMeansCaughtFailure(response: SyncResponse)
    requires exists i :: 0 <= i < |SyncOutcome(response)| && SyncOutcome(response)[i].nodeId.Absent?
    ensures ThrownMessage(response).Some? && |SyncOutcome(response)| == 1
  {
  }

  /** Two 422 bodies, one naming node 3 and one naming none. */
  lemma SyncExamples(text: string, found: string, unrelated: string)
    requires found == "Node 3: missing category" && unrelated == "Unknown error"
    ensures SyncOutcome(Http(422, text, JsonBody(Some([found])))) == [SyncError(found, NodeId("3"))]
    ensures SyncOutcome(Http(422, text, JsonBody(Some([unrelated])))) == [SyncError(unrelated, NullId)]
  {
    NodeIdFound(found);
    NodeIdAbsent(unrelated);
  }

  // ------------------------------------------------------------ the store

  /** The state `SchemaProvider` shares with the editor. */
  class Store {
    var nodes: seq<FlowNode>
    var edges: seq<FlowEdge>
    var isSyncing: bool
    var syncErrors: seq<SyncError>

    constructor ()
      ensures nodes == InitialNodes() && edges == InitialEdges()
      ensures !isSyncing && syncErrors == []
    {
      nodes := InitialNodes();
      edges := InitialEdges();
      isSyncing := false;
      syncErrors := [];
    }

    /** `addNode`: appends the node; existing nodes stay as they were, and ids are not checked. */
    method AddNode(node: FlowNode)
      modifies this
      ensures nodes == old(nodes) + [node]
      ensures edges == old(edges) && isSyncing == old(isSyncing) && syncErrors == old(syncErrors)
    {
      nodes := nodes + [node];
    }

    /** `updateSchema`: replaces the whole graph with the normalised payload and reports its size. */
    method UpdateSchema(payload: Value) returns (r: Result<Counts, JsError>)
      modifies this
      ensures NormalizeSchema(payload).Success? ==>
        && nodes == NormalizeSchema(payload).value.nodes
        && edges == NormalizeSchema(payload).value.edges
        && r == Success(Counts(|nodes|, |edges|))
      ensures NormalizeSchema(payload).Failure? ==>
        r.Failure? && nodes == old(nodes) && edges == old(edges)
      ensures isSyncing == old(isSyncing) && syncErrors == old(syncErrors)
    {
      match NormalizeSchema(payload)
      case Failure(e) =>
        r := Failure(e);
      case Success(g) =>
        nodes := g.nodes;
        edges := g.edges;
        r := Success(Counts(|g.nodes|, |g.edges|));
    }

    /** Start of `syncToBackend`: the flag goes up, old errors go, and the current graph is posted. */
    method BeginSync() returns (request: Graph)
      modifies this
      ensures isSyncing && syncErrors == []
      ensures request == Graph(nodes, edges)
      ensures nodes == old(nodes) && edges == old(edges)
    {
      isSyncing := true;
      syncErrors := [];
      request := Graph(nodes, edges);
    }

    /** Settlement of `syncToBackend`: the try/catch maps the answer to `syncErrors`, and `finally` drops the flag. */
    method FinishSync(response: SyncResponse)
      modifies this
      ensures !isSyncing
      ensures syncErrors == SyncOutcome(response)
      ensures nodes == old(nodes) && edges == old(edges)
    {
      var thrown: Option<string> := None;
      match response {
        case NetworkError(m) =>
          thrown := Some(m);
        case Http(status, text, body) =>
          if !IsOk(status) {
            if status == 422 {
              match body {
                case MalformedBody(m) =>
                  thrown := Some(m);
                case JsonBody(errors) =>
                  syncErrors := ValidationErrors(errors.GetOr([]));
              }
            } else {
              thrown := Some("Sync failed: " + text);
            }
          } else {
            match body {
              case MalformedBody(m) =>
                thrown := Some(m);
              case JsonBody(_) =>
                syncErrors := [];
            }
          }
      }
      if thrown.Some? {
        syncErrors := [SyncError(thrown.value, Absent)];
      }
      isSyncing := false;
    }

    /** `syncToBackend` run to completion against `response`. */
    method SyncToBackend(response: SyncResponse) returns (request: Graph)
      requires !isSyncing
      modifies this
      ensures request == Graph(old(nodes), old(edges))
      ensures !isSyncing && syncErrors == SyncOutcome(response)
      ensures nodes == old(nodes) && edges == old(edges)
    {
      request := BeginSync();
      FinishSync(response);
    }
  }
}

=== FILE: text.dfy ===
/**
 * String operations shared by the browser code and the Python backend:
 * trimming by a whitespace predicate (JavaScript `trim` and Python `strip`
 * differ only in which characters count as whitespace), ASCII lower-casing,
 * substring search, `find`/`rfind` of one character, `join`, the DOM's
 * splitting of a class attribute into class names, and decimal rendering.
 */
module Text {

  /** Every character of `s` satisfies `ws`. */
  predicate AllIn(s: string, ws: char -> bool) {
    forall i :: 0 <= i < |s| ==> ws(s[i])
  }

  /** Drops the leading characters that satisfy `ws`. */
  function TrimStart(s: string, ws: char -> bool): (r: string)
    ensures |r| <= |s| && r == s[|s| - |r|..]
    ensures AllIn(s[..|s| - |r|], ws)
    ensures r != [] ==> !ws(r[0])
  {
    if s != [] && ws(s[0]) then
      var r := TrimStart(s[1..], ws);
      assert s[..|s| - |r|] == [s[0]] + s[1..][..|s| - 1 - |r|];
      r
    else s
  }

  /** Drops the trailing characters that satisfy `ws`. */
  function TrimEnd(s: string, ws: char -> bool): (r: string)
    ensures |r| <= |s| && r == s[..|r|]
    ensures AllIn(s[|r|..], ws)
    ensures r != [] ==> !ws(r[|r| - 1])
  {
    if s != [] && ws(s[|s| - 1]) then
      var p := s[..|s| - 1];
      var r := TrimEnd(p, ws);
      assert s[|r|..] == p[|r|..] + [s[|s| - 1]];
      r
    else s
  }

  /** Drops whitespace at both ends. */
  function Trim(s: string, ws: char -> bool): (r: string)
    ensures |r| <= |s|
    ensures r != [] ==> !ws(r[0]) && !ws(r[|r| - 1])
  {
    TrimEnd(TrimStart(s, ws), ws)
  }

  /** The trimmed string is the middle of `s`: only whitespace is cut away, at either end. */
  lemma TrimIsMiddle(s: string, ws: char -> bool)
    ensures exists k ::
      && 0 <= k <= |s| - |Trim(s, ws)|
      && Trim(s, ws) == s[k..k + |Trim(s, ws)|]
      && AllIn(s[..k], ws)
      && AllIn(s[k + |Trim(s, ws)|..], ws)
  {
    var a := TrimStart(s, ws);
    var r := TrimEnd(a, ws);
    var k := |s| - |a|;
    TrimMiddle(s, ws, a, r, k);
  }

  /** The witness for `Trim`'s contract: the middle starts where `TrimStart` stopped. */
  lemma TrimMiddle(s: string, ws: char -> bool, a: string, r: string, k: int)
    requires k == |s| - |a| && 0 <= k && a == s[k..] && AllIn(s[..k], ws)
    requires a != [] ==> !ws(a[0])
    requires |r| <= |a| && r == a[..|r|] && AllIn(a[|r|..], ws)
    requires r != [] ==> !ws(r[|r| - 1])
    ensures 0 <= k <= |s| - |r| && r == s[k..k + |r|] && AllIn(s[..k], ws) && AllIn(s[k + |r|..], ws)
    ensures r != [] ==> !ws(r[0]) && !ws(r[|r| - 1])
  {
    assert s[k + |r|..] == a[|r|..];
  }

  /** The trimmed string is empty exactly when every character is whitespace. */
  lemma {:induction false} TrimEmptyIffBlank(s: string, ws: char -> bool)
    ensures Trim(s, ws) == [] <==> AllIn(s, ws)
  {
    var a := TrimStart(s, ws);
    if a == [] {
      assert s[..|s|] == s;
    } else {
      assert !ws(a[0]);
      assert a[0] == s[|s| - |a|];
    }
  }

  lemma {:induction false} TrimStartSkipsBlankPrefix(pre: string, s: string, ws: char -> bool)
    requires AllIn(pre, ws)
    ensures TrimStart(pre + s, ws) == TrimStart(s, ws)
  {
    if pre != [] {
      assert (pre + s)[1..] == pre[1..] + s;
      TrimStartSkipsBlankPrefix(pre[1..], s, ws);
    } else {
      assert pre + s == s;
    }
  }

  lemma {:induction false} TrimEndSkipsBlankSuffix(s: string, post: string, ws: char -> bool)
    requires AllIn(post, ws)
    ensures TrimEnd(s + post, ws) == TrimEnd(s, ws)
  {
    if post != [] {
      var p := post[..|post| - 1];
      assert (s + post)[..|s + post| - 1] == s + p;
      assert AllIn(p, ws);
      TrimEndSkipsBlankSuffix(s, p, ws);
    } else {
      assert s + post == s;
    }
  }

  /** Appending whitespace after a string whose head is not whitespace does not change where TrimStart stops. */
  lemma {:induction false} TrimStartAppend(s: string, post: string, ws: char -> bool)
    ensures TrimStart(s + post, ws) == if TrimStart(s, ws) == [] then TrimStart(post, ws) else TrimStart(s, ws) + post
  {
    if s == [] {
      assert s + post == post;
    } else if ws(s[0]) {
      assert (s + post)[1..] == s[1..] + post;
      TrimStartAppend(s[1..], post, ws);
    } else {
    }
  }

  /** Whitespace added around a string does not change its trimmed form. */
  lemma TrimIgnoresSurroundingBlanks(pre: string, s: string, post: string, ws: char -> bool)
    requires AllIn(pre, ws) && AllIn(post, ws)
    ensures Trim(pre + s + post, ws) == Trim(s, ws)
  {
    assert pre + s + post == pre + (s + post);
    TrimStartSkipsBlankPrefix(pre, s + post, ws);
    TrimStartAppend(s, post, ws);
    if TrimStart(s, ws) == [] {
      TrimEmptyIffBlank(post, ws);
      TrimEmptyIffBlank(s, ws);
    } else {
      TrimEndSkipsBlankSuffix(TrimStart(s, ws), post, ws);
    }
  }

  /** ASCII lower-casing of one character; every other character is left alone. */
  function LowerChar(c: char): char {
    if 'A' <= c <= 'Z' then (c as int + 32) as char else c
  }

  /** Lower-cases the ASCII letters of `s`, character by character. */
  function Lower(s: string): (r: string)
    ensures |r| == |s|
    ensures forall i :: 0 <= i < |s| ==> r[i] == LowerChar(s[i])
  {
    seq(|s|, i requires 0 <= i < |s| => LowerChar(s[i]))
  }

  /** Lower-casing commutes with slicing. */
  lemma LowerSlice(s: string, i: nat, j: nat)
    requires i <= j <= |s|
    ensures Lower(s[i..j]) == Lower(s)[i..j]
  {
  }

  /** Lower-casing and trimming commute when lower-casing never changes whether a character is whitespace. */
  lemma {:induction false} LowerTrimCommute(s: string, ws: char -> bool)
    requires forall c :: ws(LowerChar(c)) == ws(c)
    ensures Lower(Trim(s, ws)) == Trim(Lower(s), ws)
  {
    LowerTrimStartCommute(s, ws);
    LowerTrimEndCommute(TrimStart(s, ws), ws);
  }

  lemma {:induction false} LowerTrimStartCommute(s: string, ws: char -> bool)
    requires forall c :: ws(LowerChar(c)) == ws(c)
    ensures Lower(TrimStart(s, ws)) == TrimStart(Lower(s), ws)
  {
    if s != [] {
      assert Lower(s)[0] == LowerChar(s[0]);
      assert Lower(s)[1..] == Lower(s[1..]);
      LowerTrimStartCommute(s[1..], ws);
    }
  }

  lemma {:induction false} LowerTrimEndCommute(s: string, ws: char -> bool)
    requires forall c :: ws(LowerChar(c)) == ws(c)
    ensures Lower(TrimEnd(s, ws)) == TrimEnd(Lower(s), ws)
  {
    if s != [] {
      assert Lower(s)[|s| - 1] == LowerChar(s[|s| - 1]);
      LowerSlice(s, 0, |s| - 1);
      assert Lower(s)[..|s| - 1] == Lower(s[..|s| - 1]);
      LowerTrimEndCommute(s[..|s| - 1], ws);
    }
  }

  /** `t` occurs in `s` as a contiguous piece (JavaScript `includes`). */
  predicate Contains(s: string, t: string)
    decreases |s|
  {
    t <= s || (s != [] && Contains(s[1..], t))
  }

  /** Index of the first `c` in `s`, or -1 (Python `str.find` of one character). */
  function Find(s: string, c: char): (r: int)
    ensures -1 <= r < |s|
    ensures r == -1 <==> c !in s
    ensures r >= 0 ==> s[r] == c && c !in s[..r]
  {
    var r := FindFrom(s, c, 0);
    assert r >= 0 ==> forall k :: 0 <= k < r ==> s[..r][k] == s[k];
    r
  }

  /** The first index at or after `i` holding `c`, or -1. */
  function FindFrom(s: string, c: char, i: nat): (r: int)
    requires i <= |s|
    ensures r == -1 || i <= r < |s|
    ensures r == -1 <==> forall k :: i <= k < |s| ==> s[k] != c
    ensures r >= 0 ==> s[r] == c && forall k :: i <= k < r ==> s[k] != c
    decreases |s| - i
  {
    if i == |s| then -1 else if s[i] == c then i else FindFrom(s, c, i + 1)
  }

  /** Index of the last `c` in `s`, or -1 (Python `str.rfind` of one character). */
  function FindLast(s: string, c: char): (r: int)
    ensures -1 <= r < |s|
    ensures r == -1 <==> c !in s
    ensures r >= 0 ==> s[r] == c && c !in s[r + 1..]
  {
    var r := FindBefore(s, c, |s|);
    assert r >= 0 ==> forall k :: r < k < |s| ==> s[r + 1..][k - r - 1] == s[k];
    r
  }

  /** The last index before `n` holding `c`, or -1. */
  function FindBefore(s: string, c: char, n: nat): (r: int)
    requires n <= |s|
    ensures -1 <= r < n
    ensures r == -1 <==> forall k :: 0 <= k < n ==> s[k] != c
    ensures r >= 0 ==> s[r] == c && forall k :: r < k < n ==> s[k] != c
  {
    if n == 0 then -1 else if s[n - 1] == c then n - 1 else FindBefore(s, c, n - 1)
  }

  /** Joins `parts` with `sep` between neighbours (JavaScript `Array.prototype.join` on strings). */
  function Join(sep: string, parts: seq<string>): string {
    if parts == [] then ""
    else if |parts| == 1 then parts[0]
    else parts[0] + sep + Join(sep, parts[1..])
  }

  /** The ASCII whitespace that separates class names in a `class` attribute. */
  predicate IsAsciiWhitespace(c: char) {
    c == ' ' || c == '\t' || c == '\n' || c == '\r' || c == '\U{C}'
  }

  /** The class names of a `class` attribute, as the browser's class list reads them: maximal runs of non-whitespace. */
  function ClassNames(s: string): seq<string> {
    ClassNamesFrom(s, "")
  }

  /** Splitting helper: `cur` is the class name read so far. */
  function ClassNamesFrom(s: string, cur: string): (r: seq<string>)
    ensures forall k :: 0 <= k < |r| ==> r[k] != []
  {
    if s == [] then (if cur == [] then [] else [cur])
    else if IsAsciiWhitespace(s[0]) then (if cur == [] then [] else [cur]) + ClassNamesFrom(s[1..], "")
    else ClassNamesFrom(s[1..], cur + [s[0]])
  }

  /** A whitespace character ends the class name being read, and reading starts afresh after it. */
  lemma {:induction false} ClassNamesSplitAt(a: string, w: char, b: string, cur: string)
    requires IsAsciiWhitespace(w)
    ensures ClassNamesFrom(a + [w] + b, cur) == ClassNamesFrom(a, cur) + ClassNamesFrom(b, "")
  {
    if a == [] {
      assert a + [w] + b == [w] + b;
      assert ([w] + b)[1..] == b;
    } else {
      assert (a + [w] + b)[0] == a[0];
      assert (a + [w] + b)[1..] == a[1..] + [w] + b;
      ClassNamesSplitAt(a[1..], w, b, if IsAsciiWhitespace(a[0]) then "" else cur + [a[0]]);
    }
  }

  /** Decimal digit of a value below ten. */
  function Digit(d: nat): char
    requires d < 10
  {
    ('0' as int + d) as char
  }

  /** Decimal rendering of a natural number, as Python's f-string `{i}` writes it. */
  function NatToString(n: nat): (r: string)
    ensures r != [] && forall k :: 0 <= k < |r| ==> '0' <= r[k] <= '9'
    ensures r[|r| - 1] == Digit(n % 10)
  {
    if n < 10 then [Digit(n)] else NatToString(n / 10) + [Digit(n % 10)]
  }

  /** Different numbers are rendered differently. */
  lemma {:induction false} NatToStringInjective(m: nat, n: nat)
    requires NatToString(m) == NatToString(n)
    ensures m == n
  {
    var s := NatToString(m);
    assert m % 10 == n % 10 by {
      assert Digit(m % 10) == Digit(n % 10);
    }
    if m >= 10 && n >= 10 {
      assert NatToString(m / 10) == s[..|s| - 1] == NatToString(n / 10);
      NatToStringInjective(m / 10, n / 10);
    } else {
      assert m < 10 && n < 10;
    }
  }
}

=== FILE: wrappers.dfy ===
/** Failure-carrying result types shared by the modules of the model. */
module Wrappers {

  datatype Option<+T> = None | Some(value: T) {
    function GetOr(default: T): T {
      match this
      case Some(v) => v
      case None => default
    }
  }

  datatype Result<+R, +E> = Success(value: R) | Failure(error: E)
}
